=== FILE: README.md ===
# Aid-request lifecycle of the CITI aid programme portal

A Dafny model of how the portal moves an employee's aid request (an
`AidRequest`) from submission through the scientific and administrative
committee approvals, the accountability package, reimbursement and
completion. The portal has no single module for this. The lifecycle lives
in UI event handlers, in three near-duplicate variants:

- the all-in-one `App.tsx`, with its own `api` object and its employee and admin views;
- the component pair `EmployeeDashboard.tsx` / `AdminDashboard.tsx` over `api.ts`;
- `Login.tsx`, the component login page.

Once storage, uploads and e-mail are stripped, each handler is a
sequential step from records to records. The model has these modules:

- `Types`: the closed enums, the record shapes and the enum labels of `types.ts`.
- `Store`: the list semantics of `saveRequest`, `deleteRequest` and the two `saveUser` variants, keyed by `id`, plus the empty-store fallbacks.
- `Files`: the storage file-name sanitizer, the size label, the staged-file list and the two upload variants.
- `Notify`: the notification recipient list and the per-recipient delivery fan-out.
- `Lifecycle`: the committee flags, and which admin action each status offers.
- `AppAdmin`, `AppEmployee`: App.tsx's admin and employee handlers and its prompt-based entry points.
- `Dashboard`, `EmployeeForm`: the component variants.
- `Login`: Login.tsx.
- `Scenarios`: multi-step consequences of those handlers.

Emails are modelled as emitted `(recipient, subject)` notices. The store
is the list that would be read back. Upload results, `Date.now()` ids and
timestamps, and the replies of callbacks the components receive are
parameters.

The model states the code's behaviour, quirks included:

- `approve` in App.tsx saves a non-final approval directly and does not refresh the list the admin picks from.
- App.tsx's `onUpdate` then re-saves the loaded copy with only its status replaced. This overwrites the flags `approve` just wrote (`Scenarios.StaleListLosesFirstApproval`, `Scenarios.PromotionDropsLastFlag`).
- AdminDashboard.tsx passes only `(id, APPROVED)` upward when both committees have approved.
- A failed upload in EmployeeDashboard.tsx's accountability picker leaves `uploading` set, so the submit button stays disabled until a later batch of uploads all succeeds (`EmployeeForm.FailedUploadDisablesSubmit`, `EmployeeForm.RetryAfterFailedUploadReenablesSubmit`).

Rules the program states but no handler enforces; the model follows the handlers:

- The 15-day lead time appears as text in constants.ts:26, constants.ts:35 and App.tsx:265. No handler compares the event date with the submission date.
- The once-a-year limit (constants.ts:24) and the after-publication rule for modality II (constants.ts:33) are requirement text only.
- constants.ts:52-57 lists four accountability documents. App.tsx:218 and EmployeeDashboard.tsx:167 require a selected request and at least one file of any kind.
- `REJECTED` (types.ts:25) and `rejectionReason` (types.ts:54) are declared, but no handler assigns them; App.tsx:361 only styles the status.
- App.tsx's accountability handler does not check the request's status (App.tsx:217-234), although its picker offers only approved and awaiting-accountability requests (App.tsx:332) (`AppEmployee.AccountabilityReopensCompleted`).
- App.tsx marks the ethics file input `required` for modality II (App.tsx:310-313), but `handleSubmit` checks only the summary file (App.tsx:189). Only EmployeeDashboard's `isReady` checks the ethics proof.

## Model

| member | source | states |
|---|---|---|
| Types.ParseStatus | types.ts:22-30 | a parsed label is the label of the status returned |
| Types.StatusSetClosed | types.ts:22-30 | exactly seven statuses exist, every status is one of them, and their labels are pairwise distinct |
| Types.StatusLabelRoundTrip | types.ts:22-30 | parsing a status's label gives that status back, so the labels identify the statuses |
| Types.ModalityLabel | types.ts:17-20 | every modality label starts with "Modalidade " and is longer than that prefix; the two labels differ, since each parses back to its own modality (`Types.TwoValuedEnumsRoundTrip`) |
| Types.TwoValuedEnumsRoundTrip | types.ts:2-5 | modality and role labels parse back to their values; each enum has two values |
| Store.Find | App.tsx:85 | `find` returns a record with the key iff one exists, and it is the first such record |
| Store.CountKey | api.ts:30 | the number of records with a key is zero exactly when no record has it |
| Store.ReplaceKey | api.ts:48 | `map` replaces every record with the key and keeps the rest in their positions |
| Store.RemoveKey | api.ts:55 | `filter` keeps exactly the records without the key; its length drops by their count |
| Store.RemoveKeyAppend | api.ts:55 | removing by key distributes over concatenation, so the kept records keep their relative order |
| Store.RemoveAbsentKey | api.ts:55 | removing a key no record has leaves the list unchanged |
| Store.FindAfterReplace | api.ts:48 | after an in-place replacement, lookups of the replaced key find the new record and other keys find what they found before |
| Store.CountKeySplit | App.tsx:103 | key counts add up over concatenation |
| Store.SaveRequest | App.tsx:82-87 | an existing id is replaced in place (length and positions kept), a new id goes in front; the id then finds the saved record and every other id finds what it found before |
| Store.SaveRequestIdempotent | api.ts:43-50 | saving the same record twice equals saving it once |
| Store.DeleteRequest | api.ts:52-56 | after deleting, no record has the id; exactly the other records remain |
| Store.DeleteRequestIdempotent | api.ts:52-56 | deleting twice equals deleting once |
| Store.DeleteUndoesCreate | api.ts:43-56 | deleting a newly created request restores the list it was saved into |
| Store.SaveUserInPlace | api.ts:25-32 | api.ts replaces an existing user id in place or appends a new user; the id then finds that user |
| Store.SaveUserMoveToEnd | App.tsx:100-104 | App.tsx's save leaves exactly one user with the id, last; before it come the other users, filtered by key in their original order (see `Store.RemoveKeyAppend`), and no other user is added |
| Store.UserSavesAgreeOnNewId | api.ts:30 | for a new id the two `saveUser` variants produce the same list |
| Store.UserSavesDivergeOnExistingId | App.tsx:103 | for an existing id that is not last they can differ: re-saving `a` in `[a, b]` keeps it first in api.ts and moves it last in App.tsx |
| Store.UserSavesAgreeIffLastAndUnique | api.ts:25-32 | for an existing id the two `saveUser` variants (App.tsx:100-104) give the same list exactly when that id belongs to one user only, the last one |
| Store.LoadOrEmpty | api.ts:39-40 | with nothing stored the request list is empty (App.tsx:77-78 and 95-96 fall back the same way for requests and users), otherwise it is what was stored |
| Store.LoadUsers | api.ts:21-22 | with nothing stored the user list is the single mock employee |
| Store.FirstUserSave | api.ts:16-32 | the first user saved into an empty store is kept next to the mock user by api.ts, alone by App.tsx |
| Files.Utf16Length | api.ts:80 | a string's JavaScript length, in UTF-16 code units, is at least its character count, and equal exactly when no character lies outside the Basic Multilingual Plane |
| Files.CleanChar | api.ts:80 | a character in [a-zA-Z0-9.] is kept; any other becomes one '_' per UTF-16 code unit, so two for a character outside the Basic Multilingual Plane |
| Files.Sanitize | api.ts:80 | the regex without the `u` flag replaces code units: the cleaned name has the original's UTF-16 length and only characters from [a-zA-Z0-9._]; when no character is astral, each character outside [a-zA-Z0-9.] becomes '_' and the others are kept |
| Files.SanitizeAppend | api.ts:80 | the global replacement works unit by unit, so cleaning distributes over concatenation |
| Files.AstralCharBecomesTwoUnderscores | App.tsx:110 | a single character outside the Basic Multilingual Plane (an emoji) cleans to "__" |
| Files.SanitizeIdempotent | App.tsx:110 | cleaning a cleaned name changes nothing |
| Files.SanitizeFixedPoints | App.tsx:110 | a name is unchanged by cleaning iff every character is in [a-zA-Z0-9.] or is '_' |
| Files.Decimal | App.tsx:111 | the rendering of a timestamp in the template string is non-empty, all digits, and has no leading zero |
| Files.DecimalRoundTrip | App.tsx:111 | the decimal rendering of a timestamp is all digits and parses back to it |
| Files.KbRounded | EmployeeDashboard.tsx:39 | the kilobyte count is the integer nearest to bytes/1024, with a tie rounded up |
| Files.SizeLabel | EmployeeDashboard.tsx:153 | the size label is digits followed by "KB", and the digits are the rounded kilobyte count |
| Files.StoredFileName | App.tsx:110-111 | the storage key is the timestamp's digits, '_', then the cleaned name; its length is the digit count plus one plus the name's UTF-16 length, it has only safe characters, and it splits back into both parts |
| Files.AppendStaged | EmployeeDashboard.tsx:158 | new uploads are appended after the files already staged, both in order |
| Files.RemoveAfterAppend | EmployeeDashboard.tsx:158-163 | removing an index after an append removes it from the part it came from: from the staged files below their count, from the new uploads above it |
| Files.RemoveStaged | EmployeeDashboard.tsx:163 | removing index i deletes exactly that element and keeps the others in order; an index out of range leaves the list unchanged |
| Files.ApiUpload | api.ts:78-85 | without hosted storage the locator is the local blob URL, a failed write is an error, otherwise it is the public URL of the stored key |
| Files.AppUpload | App.tsx:107-119 | App.tsx's upload yields the empty locator on a failed write, otherwise the same locator as api.ts |
| Files.UploadVariantsAgreeUnlessStorageFails | App.tsx:113-117 | the two upload variants return the same locator except on a failed write, which only api.ts reports as an error |
| Notify.Recipients | api.ts:59-75 | the recipients are the addressee followed by the two administrator addresses, in that order |
| Notify.Dispatch | api.ts:61-75 | one delivery attempt per recipient; an attempt fails exactly when that recipient's send fails, and every recipient is still tried |
| Notify.AppDispatch | App.tsx:126-137 | with the shipped placeholder service id every attempt returns without sending; otherwise App.tsx fans out like api.ts |
| Lifecycle.SetApproval | App.tsx:384-386 | approving sets the chosen committee's flag, clears no flag, and leaves every other field unchanged |
| Lifecycle.SetApprovalIdempotent | App.tsx:384-386 | approving twice for the same committee equals approving once |
| Lifecycle.SetApprovalOrderIndependent | AdminDashboard.tsx:17-20 | the two committee approvals commute, and together they leave both flags set |
| Lifecycle.BothApproved | App.tsx:389 | the pair is complete exactly when every committee has approved (also AdminDashboard.tsx:22) |
| Lifecycle.ApprovalCompletesPair | App.tsx:389 | after approving, both flags are set iff the other committee had already approved |
| Lifecycle.OfferedActions | App.tsx:467-494 | approvals are offered only while pending approval, advancing only from accountability review to waiting for reimbursement and from there to completed; no action otherwise |
| Lifecycle.OfferedStepsMoveForward | AdminDashboard.tsx:66-96 | every offered advance moves strictly forward, and both terminal statuses offer nothing |
| Lifecycle.StatusMessage | App.tsx:402-405 | a status-change e-mail text exists only for waiting-for-reimbursement and completed |
| AppAdmin.AppApprove | App.tsx:384-396 | approve asks for `Approved` (with the approval e-mail) iff both flags are set afterwards; otherwise it saves the updated record with its status unchanged |
| AppAdmin.OnUpdate | App.tsx:592-597 | when the id is loaded, the stored record is the loaded copy with only its status replaced, whatever record was saved first; other ids are untouched |
| AppAdmin.ApproveStep | App.tsx:384-396 | a non-final approval is saved without refreshing the loaded list; a final one stores the loaded copy marked `Approved` and reloads |
| AppAdmin.HandleStatusChange | App.tsx:398-408 | with a selection, the stored record becomes the loaded copy with the new status and the list is reloaded; an e-mail goes out only for the two targets with a message |
| AppAdmin.AdminStep | App.tsx:467-494 | a click does something iff its action is offered for the selected record's status |
| AppAdmin.CountStatus | App.tsx:413-425 | a status card never counts more requests than exist; it shows zero exactly when no request has that status, and the total exactly when every request has it |
| AppAdmin.CountStatusAppend | App.tsx:413-425 | a card's count over two lists joined is the sum of its counts over each |
| AppAdmin.StatusCountsPartition | App.tsx:413-425 | the counts over the seven statuses add up to the number of requests |
| AppAdmin.DashboardCardsBounded | App.tsx:413-425 | the three cards together never exceed the number of requests |
| AppAdmin.CountAfterCreate | App.tsx:413-425 | creating a request raises only its own status's count, by one |
| Dashboard.DashboardApprove | AdminDashboard.tsx:17-27 | with both flags set only `(id, Approved)` is passed on and the fixed address is e-mailed; otherwise the updated record is saved with its status unchanged |
| Dashboard.DashboardStep | AdminDashboard.tsx:66-96 | a click does something iff its action is offered; the advances pass `(id, target)` on, and every e-mail goes to the fixed address |
| Dashboard.CompletingApprovalIsNotSaved | AdminDashboard.tsx:22-23 | the approval that completes the pair writes nothing itself, so its flag is not carried anywhere |
| Dashboard.FirstApprovalIsSaved | AdminDashboard.tsx:25-26 | a first approval is stored with the new flag and its status untouched |
| EmployeeForm.IsReady | EmployeeDashboard.tsx:43-45 | a form is ready exactly when the five typed fields are filled in and it has a summary, a parameters text or file, and under modality II the ethics proof |
| EmployeeForm.EthicsProofRequiredOnlyForModalityII | EmployeeDashboard.tsx:43-45 | the ethics proof is needed for readiness exactly under modality II |
| EmployeeForm.ParamsTextOrFile | EmployeeDashboard.tsx:44 | either parameters text or a parameters file is enough, and one of them is needed |
| EmployeeForm.SubmitRequest | EmployeeDashboard.tsx:47-63 | submission happens iff the form is ready and no upload is running; the payload is pending approval for this employee, its documents are the summary then the parameters file if any, and the e-mail goes to the typed name |
| EmployeeForm.DocumentsIgnoreEthicsProof | EmployeeDashboard.tsx:49-50 | the ethics proof never changes the submitted documents |
| EmployeeForm.Mine | EmployeeDashboard.tsx:17 | exactly the requests of the given employee are kept |
| EmployeeForm.MineAppend | EmployeeDashboard.tsx:17 | the employee filter distributes over concatenation, so the kept requests keep their stored order and multiplicity |
| EmployeeForm.Pending | EmployeeDashboard.tsx:125 | exactly the approved and awaiting-accountability requests are kept |
| EmployeeForm.PendingAppend | EmployeeDashboard.tsx:125 | the status filter distributes over concatenation, so the picker (EmployeeDashboard.tsx:140) lists requests in their stored order |
| EmployeeForm.AccountabilityChoices | EmployeeDashboard.tsx:17-125 | the picker offers exactly the employee's own requests that are approved or awaiting accountability (App.tsx:332 offers the same statuses) |
| EmployeeForm.Describe | EmployeeDashboard.tsx:151-156 | an uploaded file is recorded under its own name, with its locator, the upload time and a size label of the rounded kilobyte digits followed by "KB" (the same record as EmployeeDashboard.tsx:39) |
| EmployeeForm.StageAccountabilityFiles | EmployeeDashboard.tsx:146-160 | when every upload succeeds the described files are appended after the staged ones, in order, and `uploading` is cleared; when any upload fails the staged list is unchanged and `uploading` stays set |
| EmployeeForm.FailedUploadDisablesSubmit | EmployeeDashboard.tsx:146-167 | right after a failed upload the submit button does nothing; after successful uploads with a selection it hands the files on |
| EmployeeForm.RetryAfterFailedUploadReenablesSubmit | EmployeeDashboard.tsx:146-167 | the file input is never disabled: a later batch whose uploads all succeed keeps the files staged before the failure and enables the button again |
| EmployeeForm.SubmitAccountability | EmployeeDashboard.tsx:167 | the button hands on the selection and staged files iff a request is selected, a file is staged and no upload is running |
| AppEmployee.NewRequest | App.tsx:187-203 | refused without a summary file; otherwise the given id and submission time, the user's id, the typed name, role, event, date, value and modality copied from the form, pending approval with no flags, the summary as the only document, an ethics proof iff an ethics file was chosen, no accountability documents, and every other optional field absent |
| AppEmployee.SubmitNewRequest | App.tsx:196-206 | the new record is stored under its id (in front when the id is new) and the user's e-mail address is notified |
| AppEmployee.ModalityIIWithoutEthicsIsAccepted | App.tsx:189 | App.tsx accepts a modality-II request without an ethics proof |
| AppEmployee.Uploaded | App.tsx:224-228 | one uploaded document per staged file, in file order, each with its locator |
| AppEmployee.AccountabilityUpdate | App.tsx:230-234 | the status becomes accountability review, the old accountability documents come first and the uploads follow, and nothing else changes |
| AppEmployee.HandleAccountabilitySubmit | App.tsx:217-244 | refused without a selection or files; a selection not in the list does nothing; otherwise the updated record is stored under its id, other ids are untouched, and the user is notified |
| AppEmployee.AccountabilityReopensCompleted | App.tsx:217-234 | a completed request submitted by id goes back to accountability review |
| AppEmployee.AppLogin | App.tsx:537-541 | a user logs in only with a stored e-mail and matching stored password, and it is the first matching user in the list; if no user matches, nobody logs in |
| AppEmployee.AppRegister | App.tsx:575-580 | registration happens iff all three prompts return non-empty answers; the new employee is saved by App.tsx's move-to-end save |
| AppEmployee.RegisteredUserCanLogIn | App.tsx:544-548 | right after registering in App.tsx, the same e-mail and password log someone in: the new account exactly when no older account (another id) has those credentials, otherwise that older account, because the new user is saved last (App.tsx:103) and login takes the first match (App.tsx:539) |
| AppEmployee.OlderAccountShadowsRegistration | App.tsx:539 | with one older account holding the same e-mail and password, registering again and logging in gives the older account, not the new one |
| AppEmployee.AppLoginAppendOne | App.tsx:539 | logging in against a list with a matching account appended finds an earlier match if there is one, otherwise that account |
| AppEmployee.AppAdminAccess | App.tsx:582-585 | the admin prompt yields an administrator iff the answer is the fixed secret |
| Login.HandleRegister | Login.tsx:22-27 | a password shorter than six UTF-16 code units is refused before registering; otherwise a failed registration shows the callback's message |
| Login.HandleLogin | Login.tsx:63 | login happens iff verification succeeds and returns a user; otherwise its message is shown |
| Login.HandleAdminLogin | Login.tsx:71 | the admin tab yields an administrator iff the password is the fixed secret, otherwise "Senha incorreta" |
| Scenarios.Reload | App.tsx:527-531 | a reload makes the loaded list the stored one |
| Scenarios.StaleListLosesFirstApproval | App.tsx:384-396 | without a reload, the second committee's approval overwrites the first; the request stays pending with one flag |
| Scenarios.PromotionDropsLastFlag | App.tsx:592-597 | with a reload, the second approval promotes the request, but it is stored `Approved` without the last committee's flag |
| Scenarios.ApprovalsRun | App.tsx:187-206 | submitting into an empty store, then the scientific approval, a reload and the administrative approval (App.tsx:384-396, 592-597), leave the fresh request alone in the store, `Approved` and with the scientific flag |
| Scenarios.AdvanceStep | App.tsx:398-408 | an offered advance on the only loaded request stores and reloads it with the new status |
| Scenarios.AdvancesRun | App.tsx:467-494 | the two advances, to waiting for reimbursement and to completed, take a request under accountability review to `Completed` and change nothing else |
| Scenarios.ClosingRun | App.tsx:217-244 | the employee's accountability package on their approved request, then both advances, leave it `Completed` with the uploads on record |
| Scenarios.FullLifecycle | App.tsx:187-597 | every step of `Scenarios.RunLifecycle` (submission, both approvals, accountability, reimbursement, completion) acts, and the request goes from an empty store to `Completed` with its summary and the uploads on record, but without the administrative flag |
| Scenarios.RegistrationRulesDiffer | Login.tsx:24 | Login.tsx refuses a short password that App.tsx's registration accepts; after it someone logs in with those credentials, the new account whenever no older account has them |
| Scenarios.AdminIdentitiesDiffer | Login.tsx:71 | the same secret yields different administrator ids in Login.tsx and App.tsx |
| Scenarios.AccountabilityGatesAgree | EmployeeDashboard.tsx:167 | EmployeeDashboard.tsx's submit button and App.tsx's handler (App.tsx:218) accept the same selections and non-empty file lists |
| Scenarios.LoginFormFollowsLookup | Login.tsx:62-67 | answering Login.tsx's form with App.tsx's lookup logs in exactly the user found, and shows the message when nobody matches |

## Left out

- Supabase, localStorage and `URL.createObjectURL`. The store is the list read back, and an upload is the locator it returns. The hosted-storage branches of App.tsx's loaders return `[]` on a missing result, and that branch is not modelled separately.
- EmailJS delivery and the message bodies. A notice is its recipient and subject; which recipients fail is a parameter.
- Async ordering, `Promise.all` interleavings and `alert` calls. Each handler is one sequential step; an alert is a `Failure` message.
- `Date.now()` ids, ISO timestamps and `toLocaleDateString`. They are parameters. An id that collides with a stored one is a replacement, as `saveRequest` does.
- JSX rendering and styling, MainLayout.tsx, vite-env.d.ts and supabase.ts.
- The 15-day lead time, the annual and after-publication limits and the reimbursable-items list. These exist only as display text; no code enforces them.
- Rejection and deletion as admin actions. No handler assigns `Rejected` or `rejectionReason`, and AdminDashboard.tsx's `onDelete` is never called. `Store.DeleteRequest` models `api.deleteRequest` itself.
- The callbacks the components receive: `onUpdateStatus`, `onRequestSubmit`, `onAccountabilitySubmit`, `onRegister`, `onVerify` and `onRequestReset`. These belong to a caller that is not part of this model; their arguments are the modelled result, and their replies are parameters.
- HTML `required` attributes on form inputs. Browser-side validation is outside the model, so App.tsx's prompts and handlers are modelled with the checks their code makes.
- App.tsx's accountability file input replaces the staged list rather than appending (App.tsx:341). That list is a parameter of `AppEmployee.HandleAccountabilitySubmit`.
- Files.KbRounded: the rounding is exact integer arithmetic. The source divides in double precision, which agrees only for sizes below 2^53 bytes.

=== FILE: app_admin.dfy ===
/**
 * The admin side of App.tsx: `approve`, `handleStatusChange`, the
 * `onUpdate` callback App passes to the admin view, and the dashboard cards.
 *
 * A `Session` pairs App's loaded list (`reqs`, the list the admin picks
 * records from) with the persisted list. `onUpdate` reloads `reqs` from the
 * store when it finishes; `approve`'s own save does not, so `reqs` can be
 * older than the store.
 */
module AppAdmin {
  import opened Wrappers
  import opened Types
  import opened Store
  import opened Notify
  import opened Lifecycle

  datatype Session = Session(reqs: seq<AidRequest>, store: seq<AidRequest>)

  /** What `approve` hands on: `onUpdate(id, status, record)` with an e-mail, or a direct save. */
  datatype ApprovalCall =
    | Promote(id: string, status: Status, record: Option<AidRequest>, notice: Notice)
    | Persist(saved: AidRequest)

  const ApprovedSubject: string := "Aux\U{ed}lio Aprovado - CITI"
  const UpdateSubject: string := "Atualiza\U{e7}\U{e3}o do Pedido - CITI"

  /**
   * `approve(r, comm)`: the updated record is promoted to `Approved` (and the
   * employee e-mailed) exactly when both flags are set afterwards; otherwise
   * it is saved as is, its status unchanged.
   */
  function AppApprove(r: AidRequest, c: Committee): (call: ApprovalCall)
    ensures call.Promote? <==> BothApproved(SetApproval(r, c))
    ensures call.Promote? ==>
              call.id == r.id && call.status == Approved && call.record == Some(SetApproval(r, c)) &&
              call.notice == Notice(r.employeeInputName, ApprovedSubject)
    ensures call.Persist? ==> call.saved == SetApproval(r, c) && call.saved.status == r.status
  {
    var up := SetApproval(r, c);
    if BothApproved(up) then Promote(r.id, Approved, Some(up), Notice(r.employeeInputName, ApprovedSubject))
    else Persist(up)
  }

  /**
   * App's `onUpdate(id, s, r)`: save `r` if given, then save the copy of the
   * record found in the loaded list with only its status replaced. When the
   * id is loaded, that stale copy is what ends up stored, whatever `r` held;
   * every other id keeps what the first save left.
   */
  function OnUpdate(reqs: seq<AidRequest>, store: seq<AidRequest>, id: string, s: Status, r: Option<AidRequest>): (out: seq<AidRequest>)
    ensures Find(reqs, RequestId, id).Some? ==>
              Find(out, RequestId, id) == Some(Find(reqs, RequestId, id).value.(status := s))
    ensures Find(reqs, RequestId, id).None? ==>
              out == if r.Some? then SaveRequest(store, r.value) else store
    ensures forall k :: k != id && (r.Some? ==> k != r.value.id) ==> Find(out, RequestId, k) == Find(store, RequestId, k)
    ensures r.None? ==> forall k :: k != id ==> Find(out, RequestId, k) == Find(store, RequestId, k)
  {
    var first := if r.Some? then SaveRequest(store, r.value) else store;
    match Find(reqs, RequestId, id)
    case None => first
    case Some(current) => SaveRequest(first, current.(status := s))
  }

  /** One `approve` click, including the reload `onUpdate` performs. */
  function ApproveStep(sess: Session, r: AidRequest, c: Committee): (out: (Session, seq<Notice>))
    ensures AppApprove(r, c).Persist? ==>
              out.0 == Session(sess.reqs, SaveRequest(sess.store, SetApproval(r, c))) && out.1 == []
    ensures AppApprove(r, c).Promote? ==>
              out.0.reqs == out.0.store && out.1 == [Notice(r.employeeInputName, ApprovedSubject)]
    ensures AppApprove(r, c).Promote? && Find(sess.reqs, RequestId, r.id).Some? ==>
              Find(out.0.store, RequestId, r.id) == Some(Find(sess.reqs, RequestId, r.id).value.(status := Approved))
  {
    match AppApprove(r, c)
    case Promote(id, status, record, notice) =>
      var stored := OnUpdate(sess.reqs, sess.store, id, status, record);
      (Session(stored, stored), [notice])
    case Persist(up) => (Session(sess.reqs, SaveRequest(sess.store, up)), [])
  }

  /**
   * `handleStatusChange(newStatus)`: nothing without a selection; otherwise
   * `onUpdate` with no record, and an e-mail only for the two targets that
   * have a message.
   */
  function HandleStatusChange(sess: Session, sel: Option<AidRequest>, t: Status): (out: (Session, seq<Notice>))
    ensures sel.None? ==> out == (sess, [])
    ensures sel.Some? ==> out.0.reqs == out.0.store
    ensures sel.Some? && Find(sess.reqs, RequestId, sel.value.id).Some? ==>
              Find(out.0.store, RequestId, sel.value.id) == Some(Find(sess.reqs, RequestId, sel.value.id).value.(status := t))
    ensures sel.Some? ==> forall k :: k != sel.value.id ==> Find(out.0.store, RequestId, k) == Find(sess.store, RequestId, k)
    ensures |out.1| == (if sel.Some? && (t == WaitingReimbursement || t == Completed) then 1 else 0)
    ensures sel.Some? && |out.1| == 1 ==> out.1[0] == Notice(sel.value.employeeInputName, UpdateSubject)
  {
    match sel
    case None => (sess, [])
    case Some(r) => StatusChangeOn(sess, r, t)
  }

  /** `handleStatusChange` with `r` selected: the stored list, reloaded, and the notices for `t`. */
  function StatusChangeOn(sess: Session, r: AidRequest, t: Status): (out: (Session, seq<Notice>))
    ensures out.0.reqs == out.0.store
    ensures Find(sess.reqs, RequestId, r.id).Some? ==>
              Find(out.0.store, RequestId, r.id) == Some(Find(sess.reqs, RequestId, r.id).value.(status := t))
    ensures forall k :: k != r.id ==> Find(out.0.store, RequestId, k) == Find(sess.store, RequestId, k)
    ensures |out.1| == (if t == WaitingReimbursement || t == Completed then 1 else 0)
    ensures |out.1| == 1 ==> out.1[0] == Notice(r.employeeInputName, UpdateSubject)
  {
    var stored := OnUpdate(sess.reqs, sess.store, r.id, t, None);
    (Session(stored, stored), StatusNotices(r, t))
  }

  /** `if (msg) api.sendEmail(...)`: one notice to the typed name for the two targets with a message. */
  function StatusNotices(r: AidRequest, t: Status): (ns: seq<Notice>)
    ensures |ns| == (if t == WaitingReimbursement || t == Completed then 1 else 0)
    ensures |ns| == 1 ==> ns[0] == Notice(r.employeeInputName, UpdateSubject)
  {
    if StatusMessage(t) != "" then [Notice(r.employeeInputName, UpdateSubject)] else []
  }

  /**
   * A click in the detail view of `sel`: only an offered action does
   * anything; approvals go through `approve`, steps forward through
   * `handleStatusChange`.
   */
  function AdminStep(sess: Session, sel: AidRequest, a: AdminAction): (out: Option<(Session, seq<Notice>)>)
    ensures out.Some? <==> a in OfferedActions(sel.status)
    ensures out.Some? && a.AdvanceTo? ==> out.value == HandleStatusChange(sess, Some(sel), a.target)
    ensures out.Some? && a.ApproveBy? ==> out.value == ApproveStep(sess, sel, a.committee)
  {
    if a !in OfferedActions(sel.status) then None
    else
      match a
      case ApproveBy(c) => Some(ApproveStep(sess, sel, c))
      case AdvanceTo(t) => Some(HandleStatusChange(sess, Some(sel), t))
  }

  /** `requests.filter(r => r.status === s).length`, the number on a dashboard card. */
  function CountStatus(reqs: seq<AidRequest>, s: Status): (n: nat)
    ensures n <= |reqs|
    ensures n == 0 <==> forall q :: q in reqs ==> q.status != s
    ensures n == |reqs| <==> forall q :: q in reqs ==> q.status == s
  {
    if reqs == [] then 0
    else
      var rest := CountStatus(reqs[1..], s);
      assert forall q :: q in reqs <==> q == reqs[0] || q in reqs[1..];
      (if reqs[0].status == s then 1 else 0) + rest
  }

  /** Counting is additive: the requests of two lists are counted separately. */
  lemma {:induction false} CountStatusAppend(xs: seq<AidRequest>, ys: seq<AidRequest>, s: Status)
    ensures CountStatus(xs + ys, s) == CountStatus(xs, s) + CountStatus(ys, s)
  {
    if xs == [] {
      assert xs + ys == ys;
    } else {
      assert (xs + ys)[0] == xs[0] && (xs + ys)[1..] == xs[1..] + ys;
      CountStatusAppend(xs[1..], ys, s);
    }
  }

  /** The head request adds one to its own status's count and nothing to the others. */
  lemma CountStatusHead(reqs: seq<AidRequest>, s: Status)
    requires reqs != []
    ensures CountStatus(reqs, s) == (if reqs[0].status == s then 1 else 0) + CountStatus(reqs[1..], s)
  {
  }

  /** A status equals exactly one of the seven. */
  lemma ExactlyOneStatus(h: Status)
    ensures (if h == PendingApproval then 1 else 0) + (if h == Approved then 1 else 0) + (if h == Rejected then 1 else 0) +
            (if h == PendingAccountability then 1 else 0) + (if h == AccountabilityReview then 1 else 0) +
            (if h == WaitingReimbursement then 1 else 0) + (if h == Completed then 1 else 0) == 1
  {
  }

  /** Every request is counted under exactly one of the seven statuses. */
  lemma {:induction false} StatusCountsPartition(reqs: seq<AidRequest>)
    ensures CountStatus(reqs, PendingApproval) + CountStatus(reqs, Approved) + CountStatus(reqs, Rejected) +
            CountStatus(reqs, PendingAccountability) + CountStatus(reqs, AccountabilityReview) +
            CountStatus(reqs, WaitingReimbursement) + CountStatus(reqs, Completed) == |reqs|
  {
    if reqs != [] {
      var rest := reqs[1..];
      StatusCountsPartition(rest);
      CountStatusHead(reqs, PendingApproval);
      CountStatusHead(reqs, Approved);
      CountStatusHead(reqs, Rejected);
      CountStatusHead(reqs, PendingAccountability);
      CountStatusHead(reqs, AccountabilityReview);
      CountStatusHead(reqs, WaitingReimbursement);
      CountStatusHead(reqs, Completed);
      ExactlyOneStatus(reqs[0].status);
    }
  }

  /** The three cards ("Pendentes", "Prestação Contas", "Finalizados") never count more requests than exist. */
  lemma DashboardCardsBounded(reqs: seq<AidRequest>)
    ensures CountStatus(reqs, PendingApproval) + CountStatus(reqs, AccountabilityReview) + CountStatus(reqs, Completed) <= |reqs|
  {
    StatusCountsPartition(reqs);
  }

  /** Creating a request adds one to exactly its own status's card. */
  lemma CountAfterCreate(store: seq<AidRequest>, q: AidRequest, s: Status)
    requires !HasKey(store, RequestId, q.id)
    ensures CountStatus(SaveRequest(store, q), s) == CountStatus(store, s) + (if q.status == s then 1 else 0)
  {
    assert SaveRequest(store, q)[1..] == store;
  }
}

=== FILE: app_employee.dfy ===
/**
 * The employee side of App.tsx (`handleSubmit`, `handleAccountabilitySubmit`)
 * and its prompt-based entry points (`handleLogin`, `handleReg`, the admin
 * prompt). Uploaded files arrive as the locators the upload returned, in
 * file order; `Date.now()` ids and timestamps are parameters.
 */
module AppEmployee {
  import opened Wrappers
  import opened Types
  import opened Store
  import opened Notify
  import opened Files
  import Login

  /** The request form of App.tsx; the browser hands over local files. */
  datatype AppForm = AppForm(
    name: string,
    role: string,
    event: string,
    date: string,
    val: string,
    mod: Modality,
    sumFile: Option<LocalFile>,
    ethicsFile: Option<LocalFile>)

  const MissingSummaryMessage: string := "Erro: \U{c9} obrigat\U{f3}rio anexar o resumo do trabalho."
  const ReceivedSubject: string := "Solicita\U{e7}\U{e3}o Recebida - CITI"
  const MissingAccountabilityMessage: string := "Selecione o evento e anexe os arquivos."
  const AccountabilitySubject: string := "Presta\U{e7}\U{e3}o de Contas Enviada"

  /**
   * The record `handleSubmit` builds: refused without a summary file;
   * otherwise pending approval with no flags, the summary as its only
   * document, an ethics proof exactly when an ethics file was chosen, and no
   * accountability documents.
   */
  function NewRequest(f: AppForm, user: User, id: string, now: string, sumUrl: string, ethicsUrl: string): (r: Result<AidRequest, string>)
    ensures r.Failure? <==> f.sumFile.None?
    ensures r.Failure? ==> r.error == MissingSummaryMessage
    ensures r.Success? ==>
              && r.value.id == id
              && r.value.employeeId == user.id
              && r.value.employeeInputName == f.name
              && r.value.jobRole == f.role
              && r.value.eventName == f.event
              && r.value.eventDate == f.date
              && r.value.registrationValue == f.val
              && r.value.modality == f.mod
              && r.value.submissionDate == now
              && r.value.employeeName.None? && r.value.eventLocation.None?
              && r.value.eventParamsText.None? && r.value.rejectionReason.None?
              && r.value.status == PendingApproval
              && !Truthy(r.value.scientificApproved) && !Truthy(r.value.adminApproved)
              && r.value.documents == [SimpleFile(f.sumFile.value.name, "PDF", None, Some(sumUrl))]
              && (r.value.ethicsCommitteeProof.Some? <==> f.ethicsFile.Some?)
              && (f.ethicsFile.Some? ==> r.value.ethicsCommitteeProof.value == SimpleFile(f.ethicsFile.value.name, "PDF", None, Some(ethicsUrl)))
              && r.value.accountabilityDocuments == []
  {
    match f.sumFile
    case None => Failure(MissingSummaryMessage)
    case Some(sum) =>
      Success(AidRequest(
        id, user.id, None, f.name, f.role, f.event, None, f.date, f.val, None, f.mod, PendingApproval, now,
        None, None,
        [SimpleFile(sum.name, "PDF", None, Some(sumUrl))],
        if f.ethicsFile.Some? then Some(SimpleFile(f.ethicsFile.value.name, "PDF", None, Some(ethicsUrl))) else None,
        [], None))
  }

  /** `handleSubmit`: the new record is saved and the user's e-mail address notified. */
  function SubmitNewRequest(store: seq<AidRequest>, f: AppForm, user: User, id: string, now: string, sumUrl: string, ethicsUrl: string): (r: Result<(seq<AidRequest>, Notice), string>)
    ensures r.Failure? <==> f.sumFile.None?
    ensures r.Success? ==> Find(r.value.0, RequestId, id) == Some(NewRequest(f, user, id, now, sumUrl, ethicsUrl).value)
    ensures r.Success? && !HasKey(store, RequestId, id) ==> r.value.0 == [NewRequest(f, user, id, now, sumUrl, ethicsUrl).value] + store
    ensures r.Success? ==> r.value.1 == Notice(user.email, ReceivedSubject)
  {
    match NewRequest(f, user, id, now, sumUrl, ethicsUrl)
    case Failure(e) => Failure(e)
    case Success(req) => Success((SaveRequest(store, req), Notice(user.email, ReceivedSubject)))
  }

  /**
   * The handler itself checks only the summary: a modality-II form without
   * an ethics file is accepted and stored without an ethics proof.
   */
  lemma ModalityIIWithoutEthicsIsAccepted(f: AppForm, user: User, id: string, now: string, sumUrl: string, ethicsUrl: string)
    requires f.mod == ModalityII && f.sumFile.Some? && f.ethicsFile.None?
    ensures NewRequest(f, user, id, now, sumUrl, ethicsUrl).Success?
    ensures NewRequest(f, user, id, now, sumUrl, ethicsUrl).value.modality == ModalityII
    ensures NewRequest(f, user, id, now, sumUrl, ethicsUrl).value.ethicsCommitteeProof.None?
  {
  }

  /** The uploaded accountability files, in file order, each described as `{ name, size: 'FILE', url }`. */
  function Uploaded(files: seq<LocalFile>, urls: seq<string>): (docs: seq<SimpleFile>)
    requires |urls| == |files|
    ensures |docs| == |files|
    ensures forall i :: 0 <= i < |files| ==> docs[i] == SimpleFile(files[i].name, "FILE", None, Some(urls[i]))
  {
    seq(|files|, i requires 0 <= i < |files| => SimpleFile(files[i].name, "FILE", None, Some(urls[i])))
  }

  /**
   * `{ ...request, status: ACCOUNTABILITY_REVIEW, accountabilityDocuments: [...old, ...uploaded] }`:
   * the old documents stay first, the uploads follow, and nothing else changes.
   */
  function AccountabilityUpdate(request: AidRequest, files: seq<LocalFile>, urls: seq<string>): (up: AidRequest)
    requires |urls| == |files|
    ensures up.status == AccountabilityReview
    ensures |up.accountabilityDocuments| == |request.accountabilityDocuments| + |files|
    ensures up.accountabilityDocuments[..|request.accountabilityDocuments|] == request.accountabilityDocuments
    ensures up.accountabilityDocuments[|request.accountabilityDocuments|..] == Uploaded(files, urls)
    ensures up.(status := request.status, accountabilityDocuments := request.accountabilityDocuments) == request
  {
    var docs := request.accountabilityDocuments + Uploaded(files, urls);
    assert docs[..|request.accountabilityDocuments|] == request.accountabilityDocuments;
    request.(status := AccountabilityReview, accountabilityDocuments := docs)
  }

  /**
   * `handleAccountabilitySubmit`: refused without a selection or files; a
   * selection missing from the list does nothing; otherwise the updated
   * record is saved and the user notified. The request's status is not checked.
   */
  function HandleAccountabilitySubmit(requests: seq<AidRequest>, store: seq<AidRequest>, selectedId: string,
                                      files: seq<LocalFile>, urls: seq<string>, user: User): (r: Result<Option<(seq<AidRequest>, Notice)>, string>)
    requires |urls| == |files|
    ensures r.Failure? <==> selectedId == "" || |files| == 0
    ensures r.Failure? ==> r.error == MissingAccountabilityMessage
    ensures r.Success? && Find(requests, RequestId, selectedId).None? ==> r.value.None?
    ensures r.Success? && Find(requests, RequestId, selectedId).Some? ==>
              && r.value.Some?
              && Find(r.value.value.0, RequestId, selectedId) == Some(AccountabilityUpdate(Find(requests, RequestId, selectedId).value, files, urls))
              && (forall k :: k != selectedId ==> Find(r.value.value.0, RequestId, k) == Find(store, RequestId, k))
              && r.value.value.1 == Notice(user.email, AccountabilitySubject)
  {
    if selectedId == "" || |files| == 0 then Failure(MissingAccountabilityMessage)
    else
      match Find(requests, RequestId, selectedId)
      case None => Success(None)
      case Some(request) =>
        Success(Some((SaveRequest(store, AccountabilityUpdate(request, files, urls)), Notice(user.email, AccountabilitySubject))))
  }

  /**
   * Because the handler does not look at the status, a finished request
   * submitted by id goes back to accountability review.
   */
  lemma AccountabilityReopensCompleted(requests: seq<AidRequest>, store: seq<AidRequest>, selectedId: string,
                                       files: seq<LocalFile>, urls: seq<string>, user: User)
    requires |urls| == |files| && |files| > 0 && selectedId != ""
    requires Find(requests, RequestId, selectedId).Some? && Find(requests, RequestId, selectedId).value.status == Completed
    ensures Find(HandleAccountabilitySubmit(requests, store, selectedId, files, urls, user).value.value.0, RequestId, selectedId).value.status == AccountabilityReview
  {
  }

  predicate Matches(u: User, email: string, pass: string) {
    u.email == email && u.password == Some(pass)
  }

  /**
   * App.tsx `handleLogin`: `users.find` on e-mail and stored password. Nothing
   * keeps e-mails unique, so when several accounts match, the first one
   * in the list logs in.
   */
  function AppLogin(users: seq<User>, email: string, pass: string): (r: Option<User>)
    ensures r.Some? ==> Matches(r.value, email, pass)
    ensures r.Some? ==> exists i :: 0 <= i < |users| && users[i] == r.value && forall j :: 0 <= j < i ==> !Matches(users[j], email, pass)
    ensures r.None? ==> forall u :: u in users ==> !Matches(u, email, pass)
  {
    if users == [] then None
    else if Matches(users[0], email, pass) then Some(users[0])
    else
      var r := AppLogin(users[1..], email, pass);
      assert forall u :: u in users ==> u == users[0] || u in users[1..];
      if r.Some? then
        var i :| 0 <= i < |users[1..]| && users[1..][i] == r.value && forall j :: 0 <= j < i ==> !Matches(users[1..][j], email, pass);
        assert users[i + 1] == r.value;
        assert forall j :: 0 <= j < i + 1 ==> !Matches(users[j], email, pass) by {
          forall j | 0 <= j < i + 1
            ensures !Matches(users[j], email, pass)
          {
            if j > 0 { assert users[j] == users[1..][j - 1]; }
          }
        }
        r
      else r
  }

  /**
   * App.tsx `handleReg`, fed by three prompts (`None` is a cancelled prompt):
   * every answer must be non-empty, and there is no password-length rule.
   * The new employee is saved by App.tsx's remove-and-append `saveUser` and
   * logged in.
   */
  function AppRegister(users: seq<User>, name: Option<string>, email: Option<string>, pass: Option<string>, now: string): (r: Option<(seq<User>, User)>)
    ensures r.Some? <==> name.Some? && name.value != "" && email.Some? && email.value != "" && pass.Some? && pass.value != ""
    ensures r.Some? ==> r.value.1 == User(now, name.value, email.value, Employee, None, pass, None)
    ensures r.Some? ==> r.value.0 == SaveUserMoveToEnd(users, r.value.1)
  {
    if name.Some? && name.value != "" && email.Some? && email.value != "" && pass.Some? && pass.value != "" then
      var u := User(now, name.value, email.value, Employee, None, pass, None);
      Some((SaveUserMoveToEnd(users, u), u))
    else None
  }

  /**
   * A user registered through App.tsx can log in at once with the same
   * e-mail and password, but it is the new account that logs in exactly when
   * no older account keeps those credentials: the new one is stored last and
   * `find` takes the first match.
   */
  lemma RegisteredUserCanLogIn(users: seq<User>, name: string, email: string, pass: string, now: string)
    requires name != "" && email != "" && pass != ""
    ensures var reg := AppRegister(users, Some(name), Some(email), Some(pass), now).value;
            && AppLogin(reg.0, email, pass).Some?
            && (AppLogin(reg.0, email, pass) == Some(reg.1) <==> forall v :: v in users && v.id != now ==> !Matches(v, email, pass))
            && (AppLogin(reg.0, email, pass).value == reg.1 ||
                (AppLogin(reg.0, email, pass).value in users && AppLogin(reg.0, email, pass).value.id != now))
  {
    var u := User(now, name, email, Employee, None, Some(pass), None);
    var pre := RemoveKey(users, UserId, now);
    assert SaveUserMoveToEnd(users, u) == pre + [u];
    AppLoginAppendOne(pre, u, email, pass);
    var w := AppLogin(pre, email, pass);
    if w.Some? {
      assert w.value in pre;
    }
  }

  /** An older account with the same e-mail and password logs in instead of the one just registered. */
  lemma OlderAccountShadowsRegistration(v: User, name: string, email: string, pass: string, now: string)
    requires name != "" && email != "" && pass != ""
    requires Matches(v, email, pass) && v.id != now
    ensures var reg := AppRegister([v], Some(name), Some(email), Some(pass), now).value;
            AppLogin(reg.0, email, pass) == Some(v) && v != reg.1
  {
    RegisteredUserCanLogIn([v], name, email, pass, now);
  }

  /** Logging in against a list with one matching account appended: an earlier match wins, otherwise that account. */
  lemma {:induction false} AppLoginAppendOne(pre: seq<User>, u: User, email: string, pass: string)
    requires Matches(u, email, pass)
    ensures AppLogin(pre + [u], email, pass) ==
            (if AppLogin(pre, email, pass).Some? then AppLogin(pre, email, pass) else Some(u))
    decreases |pre|
  {
    if pre == [] {
      assert pre + [u] == [u];
    } else {
      assert (pre + [u])[0] == pre[0];
      assert (pre + [u])[1..] == pre[1..] + [u];
      AppLoginAppendOne(pre[1..], u, email, pass);
    }
  }

  /** The App.tsx admin prompt: the administrator exactly when the answer is the secret. */
  function AppAdminAccess(answer: Option<string>): (r: Option<User>)
    ensures r.Some? <==> answer == Some(Login.AdminSecret)
    ensures r.Some? ==> r.value.role == Admin && r.value.id == "adm"
  {
    if answer == Some(Login.AdminSecret) then Some(User("adm", "Gest\U{e3}o CITI", "adm@citi.com", Admin, None, None, None))
    else None
  }
}

=== FILE: dashboard.dfy ===
/**
 * AdminDashboard.tsx, the component variant of the admin view. It receives
 * `onUpdateStatus(id, status)` from a caller that is not part of this
 * model, so a status change is modelled as the call it makes; the only
 * write it performs itself is `api.saveRequest`. It is also handed an
 * `onDelete` callback that it never calls, and it has no delete action.
 */
module Dashboard {
  import opened Wrappers
  import opened Types
  import opened Store
  import opened Notify
  import opened Lifecycle

  /** What one click hands on: a status change through the callback, or a direct save. */
  datatype DashboardCall = StatusCall(id: string, status: Status) | SaveCall(record: AidRequest)

  /** Every e-mail this component sends goes to this fixed address. */
  const DashboardRecipient: string := "usuario@citi.com"

  /**
   * `handleApproval(req, committee)`: with both flags set, only the id and
   * `Approved` are passed on (the updated record is not); otherwise the
   * updated record is saved with its status unchanged.
   */
  function DashboardApprove(r: AidRequest, c: Committee): (out: (DashboardCall, seq<Notice>))
    ensures out.0.StatusCall? <==> BothApproved(SetApproval(r, c))
    ensures out.0.StatusCall? ==>
              out.0 == StatusCall(r.id, Approved) &&
              out.1 == [Notice(DashboardRecipient, "Solicita\U{e7}\U{e3}o Aprovada")]
    ensures out.0.SaveCall? ==> out.0.record == SetApproval(r, c) && out.0.record.status == r.status && out.1 == []
  {
    var updated := SetApproval(r, c);
    if BothApproved(updated) then (StatusCall(r.id, Approved), [Notice(DashboardRecipient, "Solicita\U{e7}\U{e3}o Aprovada")])
    else (SaveCall(updated), [])
  }

  /** A click on an action rendered for `sel`; anything not rendered does nothing. */
  function DashboardStep(sel: AidRequest, a: AdminAction): (out: Option<(DashboardCall, seq<Notice>)>)
    ensures out.Some? <==> a in OfferedActions(sel.status)
    ensures out.Some? && a.ApproveBy? ==> out.value == DashboardApprove(sel, a.committee)
    ensures out.Some? && a == AdvanceTo(WaitingReimbursement) ==>
              out.value == (StatusCall(sel.id, WaitingReimbursement), [Notice(DashboardRecipient, "Presta\U{e7}\U{e3}o de Contas Aprovada")])
    ensures out.Some? && a == AdvanceTo(Completed) ==>
              out.value == (StatusCall(sel.id, Completed), [Notice(DashboardRecipient, "Reembolso Finalizado")])
    ensures out.Some? ==> forall i :: 0 <= i < |out.value.1| ==> out.value.1[i].to == DashboardRecipient
  {
    if a !in OfferedActions(sel.status) then None
    else
      match a
      case ApproveBy(c) => Some(DashboardApprove(sel, c))
      case AdvanceTo(t) =>
        if t == WaitingReimbursement then
          Some((StatusCall(sel.id, WaitingReimbursement), [Notice(DashboardRecipient, "Presta\U{e7}\U{e3}o de Contas Aprovada")]))
        else
          Some((StatusCall(sel.id, Completed), [Notice(DashboardRecipient, "Reembolso Finalizado")]))
  }

  /** The list this component itself writes: only a direct save changes it. */
  function DashboardWrites(store: seq<AidRequest>, call: DashboardCall): seq<AidRequest> {
    match call
    case SaveCall(rec) => SaveRequest(store, rec)
    case StatusCall(_, _) => store
  }

  /**
   * When the second committee's approval completes the pair, the component
   * writes nothing: the flag it just set reaches the store only if the
   * unseen `onUpdateStatus` caller writes it, and the call does not carry it.
   */
  lemma CompletingApprovalIsNotSaved(store: seq<AidRequest>, r: AidRequest, c: Committee)
    requires HasApproval(r, if c == Scientific then Administrative else Scientific)
    ensures DashboardWrites(store, DashboardApprove(r, c).0) == store
    ensures DashboardApprove(r, c).0 == StatusCall(r.id, Approved)
  {
    ApprovalCompletesPair(r, c);
  }

  /** A first approval is saved with the other flag as it was and the status untouched. */
  lemma FirstApprovalIsSaved(store: seq<AidRequest>, r: AidRequest, c: Committee)
    requires !HasApproval(r, if c == Scientific then Administrative else Scientific)
    ensures Find(DashboardWrites(store, DashboardApprove(r, c).0), RequestId, r.id) == Some(SetApproval(r, c))
  {
    ApprovalCompletesPair(r, c);
  }
}

=== FILE: employee_form.dfy ===
/**
 * EmployeeDashboard.tsx: the request form's readiness test and payload,
 * the list of requests offered for accountability, and when the
 * accountability submit button is enabled. Uploads arrive as finished
 * `SimpleFile`s; `onRequestSubmit` and `onAccountabilitySubmit` belong to
 * a caller that is not part of this model, so their arguments are the result.
 */
module EmployeeForm {
  import opened Wrappers
  import opened Types
  import opened Notify
  import opened Files

  /** The form state; text fields start as "" and file fields as absent. */
  datatype RequestForm = RequestForm(
    employeeInputName: string,
    jobRole: string,
    eventName: string,
    eventLocation: string,
    eventDate: string,
    registrationValue: string,
    modality: Modality,
    eventParamsText: string,
    paramsFile: Option<SimpleFile>,
    summaryFile: Option<SimpleFile>,
    ethicsProofFile: Option<SimpleFile>)

  /** `{ ...formData, employeeId, submissionDate, documents, status }`. */
  datatype RequestPayload = RequestPayload(
    form: RequestForm,
    employeeId: string,
    submissionDate: string,
    documents: seq<SimpleFile>,
    status: Status)

  /**
   * `isReady`: the five typed fields are filled in, and the form carries the
   * summary, some event-parameters evidence and, under modality II, the
   * ethics proof. The event location is not part of it.
   */
  function IsReady(f: RequestForm): (b: bool)
    ensures b ==> f.summaryFile.Some? && (f.eventParamsText != "" || f.paramsFile.Some?)
    ensures b && f.modality == ModalityII ==> f.ethicsProofFile.Some?
    ensures b ==> forall t :: t in [f.employeeInputName, f.jobRole, f.eventName, f.eventDate, f.registrationValue] ==> t != ""
    ensures ((forall t :: t in [f.employeeInputName, f.jobRole, f.eventName, f.eventDate, f.registrationValue] ==> t != "")
             && f.summaryFile.Some? && (f.eventParamsText != "" || f.paramsFile.Some?)
             && (f.modality == ModalityII ==> f.ethicsProofFile.Some?)) ==> b
  {
    var typed := [f.employeeInputName, f.jobRole, f.eventName, f.eventDate, f.registrationValue];
    assert typed[0] in typed && typed[1] in typed && typed[2] in typed && typed[3] in typed && typed[4] in typed;
    && f.employeeInputName != ""
    && f.jobRole != ""
    && f.eventName != ""
    && f.eventDate != ""
    && f.registrationValue != ""
    && f.summaryFile.Some?
    && (f.eventParamsText != "" || f.paramsFile.Some?)
    && (f.modality == ModalityI || f.ethicsProofFile.Some?)
  }

  /**
   * The ethics proof matters to readiness exactly under modality II: a ready
   * modality-I form stays ready without it, a modality-II form never is.
   */
  lemma EthicsProofRequiredOnlyForModalityII(f: RequestForm)
    ensures IsReady(f) && f.modality == ModalityI ==> IsReady(f.(ethicsProofFile := None))
    ensures f.modality == ModalityII ==> !IsReady(f.(ethicsProofFile := None))
  {
  }

  /** Either kind of event-parameters evidence is enough; a ready form needs at least one. */
  lemma ParamsTextOrFile(f: RequestForm, file: SimpleFile)
    ensures IsReady(f.(eventParamsText := "")) ==> f.paramsFile.Some?
    ensures IsReady(f.(paramsFile := None)) ==> IsReady(f.(paramsFile := Some(file)))
    ensures IsReady(f.(eventParamsText := "", paramsFile := Some(file))) <==> IsReady(f.(eventParamsText := "x", paramsFile := None))
  {
  }

  const NewRequestSubject: string := "Nova Solicita\U{e7}\U{e3}o Enviada"

  /**
   * The submit button and `handleSubmit`: disabled unless the form is ready
   * and no upload is running; otherwise the payload lists the summary, then
   * the parameters file when one was uploaded, and is pending approval for
   * this dashboard's employee. The e-mail is addressed to the typed name.
   */
  function SubmitRequest(f: RequestForm, employeeId: string, now: string, uploading: bool): (r: Option<(RequestPayload, Notice)>)
    ensures r.Some? <==> IsReady(f) && !uploading
    ensures r.Some? ==> r.value.0.status == PendingApproval && r.value.0.employeeId == employeeId
    ensures r.Some? ==> r.value.0.form == f && r.value.0.submissionDate == now
    ensures r.Some? ==> 1 <= |r.value.0.documents| <= 2 && r.value.0.documents[0] == f.summaryFile.value
    ensures r.Some? ==> (|r.value.0.documents| == 2 <==> f.paramsFile.Some?)
    ensures r.Some? && f.paramsFile.Some? ==> r.value.0.documents[1] == f.paramsFile.value
    ensures r.Some? ==> r.value.1 == Notice(f.employeeInputName, NewRequestSubject)
  {
    if !IsReady(f) || uploading then None
    else
      var docs := [f.summaryFile.value] + (if f.paramsFile.Some? then [f.paramsFile.value] else []);
      Some((RequestPayload(f, employeeId, now, docs, PendingApproval), Notice(f.employeeInputName, NewRequestSubject)))
  }

  /** The ethics proof never reaches `documents`: swapping it leaves the list as it was. */
  lemma DocumentsIgnoreEthicsProof(f: RequestForm, employeeId: string, now: string, e: Option<SimpleFile>)
    requires IsReady(f) && IsReady(f.(ethicsProofFile := e))
    ensures SubmitRequest(f, employeeId, now, false).value.0.documents ==
            SubmitRequest(f.(ethicsProofFile := e), employeeId, now, false).value.0.documents
  {
  }

  /** `requests.filter(r => r.employeeId === employeeId)`. */
  function Mine(requests: seq<AidRequest>, employeeId: string): (r: seq<AidRequest>)
    ensures |r| <= |requests|
    ensures forall q :: q in r <==> q in requests && q.employeeId == employeeId
  {
    if requests == [] then []
    else
      var rest := Mine(requests[1..], employeeId);
      assert forall q :: q in requests <==> q == requests[0] || q in requests[1..];
      if requests[0].employeeId == employeeId then [requests[0]] + rest else rest
  }

  /** `filter` distributes over concatenation, so the kept requests keep their order and multiplicity. */
  lemma {:induction false} MineAppend(xs: seq<AidRequest>, ys: seq<AidRequest>, employeeId: string)
    ensures Mine(xs + ys, employeeId) == Mine(xs, employeeId) + Mine(ys, employeeId)
  {
    if xs == [] {
      assert xs + ys == ys;
    } else {
      assert (xs + ys)[0] == xs[0];
      assert (xs + ys)[1..] == xs[1..] + ys;
      MineAppend(xs[1..], ys, employeeId);
    }
  }

  predicate AwaitingAccountability(q: AidRequest) {
    q.status == Approved || q.status == PendingAccountability
  }

  /** `pending`: the statuses that may still receive an accountability package. */
  function Pending(requests: seq<AidRequest>): (r: seq<AidRequest>)
    ensures |r| <= |requests|
    ensures forall q :: q in r <==> q in requests && AwaitingAccountability(q)
  {
    if requests == [] then []
    else
      var rest := Pending(requests[1..]);
      assert forall q :: q in requests <==> q == requests[0] || q in requests[1..];
      if AwaitingAccountability(requests[0]) then [requests[0]] + rest else rest
  }

  /** Likewise for `pending`: the picker lists the kept requests in their stored order. */
  lemma {:induction false} PendingAppend(xs: seq<AidRequest>, ys: seq<AidRequest>)
    ensures Pending(xs + ys) == Pending(xs) + Pending(ys)
  {
    if xs == [] {
      assert xs + ys == ys;
    } else {
      assert (xs + ys)[0] == xs[0];
      assert (xs + ys)[1..] == xs[1..] + ys;
      PendingAppend(xs[1..], ys);
    }
  }

  /** The requests offered in the accountability picker: the employee's own, approved or awaiting accountability. */
  function AccountabilityChoices(requests: seq<AidRequest>, employeeId: string): (r: seq<AidRequest>)
    ensures forall q :: q in r <==> q in requests && q.employeeId == employeeId && AwaitingAccountability(q)
  {
    Pending(Mine(requests, employeeId))
  }

  /**
   * The accountability submit button: enabled only with a selected request,
   * at least one staged file and no upload running; it hands the selection
   * and the staged files, as staged, to `onAccountabilitySubmit`.
   */
  function SubmitAccountability(selectedId: string, staged: seq<SimpleFile>, uploading: bool): (r: Option<(string, seq<SimpleFile>)>)
    ensures r.Some? <==> selectedId != "" && |staged| > 0 && !uploading
    ensures r.Some? ==> r.value == (selectedId, staged)
  {
    if selectedId == "" || |staged| == 0 || uploading then None else Some((selectedId, staged))
  }

  /** `{ name, size: (size/1024).toFixed(0)+'KB', date, url }`: how an upload is described once it has a locator. */
  function Describe(f: LocalFile, url: string, now: string): (d: SimpleFile)
    ensures d.name == f.name && d.url == Some(url) && d.date == Some(now)
    ensures d.size == SizeLabel(f.bytes)
  {
    SimpleFile(f.name, SizeLabel(f.bytes), Some(now), Some(url))
  }

  /**
   * The accountability file input: `uploading` is raised, every chosen file
   * is uploaded, and only when all uploads succeed are their descriptions
   * appended to the staged list and `uploading` lowered. Neither step is in
   * a `finally`, so one failed upload leaves the staged list as it was and
   * `uploading` raised.
   */
  function StageAccountabilityFiles(staged: seq<SimpleFile>, files: seq<LocalFile>, results: seq<Result<string, string>>, now: string): (out: (seq<SimpleFile>, bool))
    requires |results| == |files|
    ensures (forall i :: 0 <= i < |results| ==> results[i].Success?) ==>
              && !out.1
              && |out.0| == |staged| + |files|
              && out.0[..|staged|] == staged
              && forall i :: 0 <= i < |files| ==> out.0[|staged| + i] == Describe(files[i], results[i].value, now)
    ensures (exists i :: 0 <= i < |results| && results[i].Failure?) ==> out == (staged, true)
  {
    if forall i :: 0 <= i < |results| ==> results[i].Success? then
      var described := seq(|files|, i requires 0 <= i < |files| => Describe(files[i], results[i].value, now));
      (AppendStaged(staged, described), false)
    else (staged, true)
  }

  /**
   * Right after a failed upload the accountability submit button is
   * disabled, whatever is selected; after successful uploads it is enabled
   * as soon as a request is selected.
   */
  lemma FailedUploadDisablesSubmit(staged: seq<SimpleFile>, files: seq<LocalFile>, results: seq<Result<string, string>>,
                                   now: string, selectedId: string)
    requires |results| == |files|
    ensures var out := StageAccountabilityFiles(staged, files, results, now);
            (exists i :: 0 <= i < |results| && results[i].Failure?) ==> SubmitAccountability(selectedId, out.0, out.1).None?
    ensures var out := StageAccountabilityFiles(staged, files, results, now);
            (forall i :: 0 <= i < |results| ==> results[i].Success?) && selectedId != "" && |staged| + |files| > 0 ==>
              SubmitAccountability(selectedId, out.0, out.1).Some?
  {
  }

  /**
   * The file input itself is never disabled, so the disabled button is not
   * final: a later batch whose uploads all succeed lowers `uploading`, keeps
   * the files staged before the failure, and enables the button again.
   */
  lemma RetryAfterFailedUploadReenablesSubmit(staged: seq<SimpleFile>, files: seq<LocalFile>, results: seq<Result<string, string>>,
                                              retryFiles: seq<LocalFile>, retryResults: seq<Result<string, string>>,
                                              now: string, selectedId: string)
    requires |results| == |files| && |retryResults| == |retryFiles|
    requires exists i :: 0 <= i < |results| && results[i].Failure?
    requires forall i :: 0 <= i < |retryResults| ==> retryResults[i].Success?
    requires selectedId != "" && |retryFiles| > 0
    ensures var failed := StageAccountabilityFiles(staged, files, results, now);
            var retried := StageAccountabilityFiles(failed.0, retryFiles, retryResults, now);
            && SubmitAccountability(selectedId, failed.0, failed.1).None?
            && retried.0[..|staged|] == staged
            && SubmitAccountability(selectedId, retried.0, retried.1) == Some((selectedId, retried.0))
  {
  }
}

=== FILE: files.dfy ===
/**
 * File handling around uploads: the storage key built from a timestamp and
 * a cleaned file name, the "KB" size label, the staged list of
 * accountability files, and the two upload variants (api.ts and App.tsx)
 * that differ in how a storage failure surfaces.
 */
module Files {
  import opened Wrappers

  /** A file the browser hands over: its name and its size in bytes. */
  datatype LocalFile = LocalFile(name: string, bytes: nat)

  /** The characters the upload cleaner keeps: `[a-zA-Z0-9.]`. */
  predicate SafeChar(c: char) {
    ('a' <= c <= 'z') || ('A' <= c <= 'Z') || ('0' <= c <= '9') || c == '.'
  }

  predicate IsDigit(c: char) {
    '0' <= c <= '9'
  }

  /** A character above U+FFFF is two UTF-16 code units in a JavaScript string. */
  predicate Astral(c: char) {
    c as int > 0xFFFF
  }

  /** JavaScript's `length`: the number of UTF-16 code units. */
  function Utf16Length(s: string): (n: nat)
    ensures n >= |s|
    ensures n == |s| <==> forall i :: 0 <= i < |s| ==> !Astral(s[i])
  {
    if s == [] then 0
    else
      var rest := Utf16Length(s[1..]);
      assert forall i :: 1 <= i < |s| ==> s[i] == s[1..][i - 1];
      (if Astral(s[0]) then 2 else 1) + rest
  }

  /**
   * What the cleaner writes for one character. The pattern has no `u` flag,
   * so it sees each UTF-16 code unit: an astral character is two unsafe
   * surrogates and becomes two underscores.
   */
  function CleanChar(c: char): (r: string)
    ensures |r| == if Astral(c) then 2 else 1
    ensures SafeChar(c) ==> r == [c]
    ensures !SafeChar(c) ==> forall i :: 0 <= i < |r| ==> r[i] == '_'
  {
    if SafeChar(c) then [c] else if Astral(c) then "__" else "_"
  }

  /**
   * `name.replace(/[^a-zA-Z0-9.]/g, '_')`: one output code unit per input
   * code unit, all of them kept characters or underscores; on a name without
   * astral characters, each kept character stays in place and every other
   * one becomes '_'.
   */
  function Sanitize(name: string): (r: string)
    ensures |r| == Utf16Length(name)
    ensures forall i :: 0 <= i < |r| ==> SafeChar(r[i]) || r[i] == '_'
    ensures (forall i :: 0 <= i < |name| ==> !Astral(name[i])) ==>
              forall i :: 0 <= i < |name| ==> r[i] == if SafeChar(name[i]) then name[i] else '_'
  {
    if name == [] then []
    else
      var rest := Sanitize(name[1..]);
      assert forall i :: 1 <= i < |name| ==> name[i] == name[1..][i - 1];
      CleanChar(name[0]) + rest
  }

  /** Cleaning works character by character, so it distributes over concatenation. */
  lemma {:induction false} SanitizeAppend(a: string, b: string)
    ensures Sanitize(a + b) == Sanitize(a) + Sanitize(b)
  {
    if a == [] {
      assert a + b == b;
    } else {
      assert (a + b)[0] == a[0] && (a + b)[1..] == a[1..] + b;
      SanitizeAppend(a[1..], b);
      calc {
        Sanitize(a + b);
        CleanChar(a[0]) + Sanitize(a[1..] + b);
        CleanChar(a[0]) + (Sanitize(a[1..]) + Sanitize(b));
        (CleanChar(a[0]) + Sanitize(a[1..])) + Sanitize(b);
      }
    }
  }

  /** A single astral character, such as an emoji, becomes two underscores. */
  lemma AstralCharBecomesTwoUnderscores(c: char)
    requires Astral(c)
    ensures Sanitize([c]) == "__"
  {
    assert [c][1..] == [];
  }

  /** Cleaning a cleaned name changes nothing more. */
  lemma SanitizeIdempotent(name: string)
    ensures Sanitize(Sanitize(name)) == Sanitize(name)
  {
    var r := Sanitize(name);
    assert forall i :: 0 <= i < |r| ==> !Astral(r[i]);
  }

  /**
   * A name is left alone exactly when it consists of kept characters and
   * underscores (an underscore is replaced by itself).
   */
  lemma SanitizeFixedPoints(name: string)
    ensures Sanitize(name) == name <==> forall i :: 0 <= i < |name| ==> SafeChar(name[i]) || name[i] == '_'
  {
    if Sanitize(name) == name {
      forall i | 0 <= i < |name|
        ensures SafeChar(name[i]) || name[i] == '_'
      {
        assert Sanitize(name)[i] == name[i];
      }
    }
  }

  function DigitChar(d: nat): (c: char)
    requires d < 10
    ensures IsDigit(c)
  {
    ('0' as int + d) as char
  }

  function DigitValue(c: char): (d: nat)
    requires IsDigit(c)
    ensures d < 10 && DigitChar(d) == c
  {
    c as int - '0' as int
  }

  /** A non-negative number written in decimal, as JavaScript's string conversion writes it. */
  function Decimal(n: nat): (s: string)
    ensures |s| > 0
    ensures forall i :: 0 <= i < |s| ==> IsDigit(s[i])
    ensures |s| > 1 ==> s[0] != '0'
    decreases n
  {
    if n < 10 then [DigitChar(n)]
    else Decimal(n / 10) + [DigitChar(n % 10)]
  }

  /** Reads a string of digits back as a number. */
  function ParseDecimal(s: string): nat
    requires forall i :: 0 <= i < |s| ==> IsDigit(s[i])
  {
    if s == [] then 0
    else ParseDecimal(s[..|s| - 1]) * 10 + DigitValue(s[|s| - 1])
  }

  lemma {:induction false} DecimalRoundTrip(n: nat)
    ensures ParseDecimal(Decimal(n)) == n
    decreases n
  {
    var s := Decimal(n);
    if n < 10 {
      assert s[..|s| - 1] == [];
    } else {
      DecimalRoundTrip(n / 10);
      assert s[..|s| - 1] == Decimal(n / 10);
    }
  }

  /**
   * `(bytes/1024).toFixed(0)`: the integer nearest to bytes/1024, a tie going
   * to the larger one (section 21.1.3.3 of ECMA-262). The quotient is exact in
   * double precision for every file size below 2^53 bytes.
   */
  function KbRounded(bytes: nat): (k: nat)
    ensures k * 1024 - 512 <= bytes < k * 1024 + 512
  {
    (bytes + 512) / 1024
  }

  /** The size label of an uploaded file: rounded kilobytes followed by "KB". */
  function SizeLabel(bytes: nat): (r: string)
    ensures |r| >= 3 && r[|r| - 2..] == "KB"
    ensures forall i :: 0 <= i < |r| - 2 ==> IsDigit(r[i])
    ensures ParseDecimal(r[..|r| - 2]) * 1024 - 512 <= bytes < ParseDecimal(r[..|r| - 2]) * 1024 + 512
  {
    var digits := Decimal(KbRounded(bytes));
    var r := digits + "KB";
    assert r[..|r| - 2] == digits;
    DecimalRoundTrip(KbRounded(bytes));
    r
  }

  /**
   * The storage key of an upload: the `Date.now()` timestamp, an underscore,
   * and the cleaned original name. The timestamp's digits hold no underscore,
   * so the first underscore splits the key back into its two parts.
   */
  function StoredFileName(now: nat, name: string): (r: string)
    ensures forall i :: 0 <= i < |r| ==> SafeChar(r[i]) || r[i] == '_'
    ensures |r| == |Decimal(now)| + 1 + Utf16Length(name)
    ensures r[|Decimal(now)|] == '_'
    ensures forall i :: 0 <= i < |Decimal(now)| ==> r[i] != '_'
    ensures forall i :: 0 <= i < |Decimal(now)| ==> IsDigit(r[i])
    ensures ParseDecimal(r[..|Decimal(now)|]) == now
    ensures r[|Decimal(now)| + 1..] == Sanitize(name)
  {
    var stamp := Decimal(now);
    var r := stamp + "_" + Sanitize(name);
    assert r[..|stamp|] == stamp;
    assert r[|stamp| + 1..] == Sanitize(name);
    DecimalRoundTrip(now);
    r
  }

  /** EmployeeDashboard.tsx: a new batch of uploads goes after the files already staged. */
  function AppendStaged<T>(staged: seq<T>, uploaded: seq<T>): (r: seq<T>)
    ensures |r| == |staged| + |uploaded|
    ensures r[..|staged|] == staged && r[|staged|..] == uploaded
  {
    staged + uploaded
  }

  /** EmployeeDashboard.tsx `accFiles.filter((_, idx) => idx !== i)`. */
  method RemoveStaged<T>(staged: seq<T>, i: int) returns (r: seq<T>)
    ensures 0 <= i < |staged| ==> r == staged[..i] + staged[i + 1..]
    ensures !(0 <= i < |staged|) ==> r == staged
  {
    r := [];
    var j := 0;
    while j < |staged|
      invariant 0 <= j <= |staged|
      invariant 0 <= i < j ==> r == staged[..i] + staged[i + 1..j]
      invariant !(0 <= i < j) ==> r == staged[..j]
    {
      if j != i {
        if 0 <= i < j {
          assert staged[i + 1..j + 1] == staged[i + 1..j] + [staged[j]];
        } else {
          assert staged[..j + 1] == staged[..j] + [staged[j]];
        }
        r := r + [staged[j]];
      }
      j := j + 1;
    }
    if 0 <= i < |staged| {
      assert staged[i + 1..j] == staged[i + 1..];
    } else {
      assert staged[..j] == staged;
    }
  }

  /**
   * Removing a staged file after a new batch was appended: an index in the
   * new batch removes from the batch alone, an earlier index removes from
   * the old files alone; either way the other part keeps its order.
   */
  lemma RemoveAfterAppend<T>(staged: seq<T>, uploaded: seq<T>, i: int)
    requires 0 <= i < |staged| + |uploaded|
    ensures var a := AppendStaged(staged, uploaded);
            i >= |staged| ==> a[..i] + a[i + 1..] == staged + (uploaded[..i - |staged|] + uploaded[i - |staged| + 1..])
    ensures var a := AppendStaged(staged, uploaded);
            i < |staged| ==> a[..i] + a[i + 1..] == (staged[..i] + staged[i + 1..]) + uploaded
  {
    var a := AppendStaged(staged, uploaded);
    if i >= |staged| {
      assert a[..i] == staged + uploaded[..i - |staged|];
      assert a[i + 1..] == uploaded[i - |staged| + 1..];
    } else {
      assert a[..i] == staged[..i];
      assert a[i + 1..] == staged[i + 1..] + uploaded;
    }
  }

  /** Where an upload goes: no hosted storage configured, or hosted storage whose write succeeds or fails. */
  datatype Backend = LocalOnly | Hosted(storageOk: bool)

  /**
   * api.ts `uploadFile`: without hosted storage the locator is the local blob
   * URL; a failed storage write is an error; otherwise the public URL of the
   * stored key.
   */
  function ApiUpload(backend: Backend, blobUrl: string, publicUrl: string -> string, now: nat, name: string): (r: Result<string, string>)
    ensures backend.LocalOnly? ==> r == Success(blobUrl)
    ensures backend.Hosted? && !backend.storageOk ==> r == Failure("Falha no upload")
    ensures backend.Hosted? && backend.storageOk ==> r == Success(publicUrl(StoredFileName(now, name)))
  {
    match backend
    case LocalOnly => Success(blobUrl)
    case Hosted(ok) => if ok then Success(publicUrl(StoredFileName(now, name))) else Failure("Falha no upload")
  }

  /** App.tsx `uploadFile`: a failed storage write is reported to the user and yields the empty locator. */
  function AppUpload(backend: Backend, blobUrl: string, publicUrl: string -> string, now: nat, name: string): (r: string)
    ensures backend.LocalOnly? ==> r == blobUrl
    ensures backend.Hosted? && !backend.storageOk ==> r == ""
    ensures backend.Hosted? && backend.storageOk ==> r == publicUrl(StoredFileName(now, name))
  {
    match backend
    case LocalOnly => blobUrl
    case Hosted(ok) => if ok then publicUrl(StoredFileName(now, name)) else ""
  }

  /** The two upload variants agree except on a failed write, which only api.ts turns into an error. */
  lemma UploadVariantsAgreeUnlessStorageFails(backend: Backend, blobUrl: string, publicUrl: string -> string, now: nat, name: string)
    ensures ApiUpload(backend, blobUrl, publicUrl, now, name).Failure? <==> backend == Hosted(false)
    ensures ApiUpload(backend, blobUrl, publicUrl, now, name).Success? ==>
              ApiUpload(backend, blobUrl, publicUrl, now, name).value == AppUpload(backend, blobUrl, publicUrl, now, name)
  {
  }
}

=== FILE: lifecycle.dfy ===
/**
 * The rules of the request lifecycle that App.tsx's admin view and
 * AdminDashboard.tsx share: setting one committee's approval flag, the
 * "both flags" test that triggers approval, which admin actions a status
 * offers, and the message a status change sends.
 */
module Lifecycle {
  import opened Wrappers
  import opened Types

  datatype Committee = Scientific | Administrative

  /** The admin actions a request's detail view can offer. There is no reject action. */
  datatype AdminAction = ApproveBy(committee: Committee) | AdvanceTo(target: Status)

  predicate HasApproval(r: AidRequest, c: Committee) {
    match c
    case Scientific => Truthy(r.scientificApproved)
    case Administrative => Truthy(r.adminApproved)
  }

  /**
   * `up.scientificApproved && up.adminApproved`, read with JavaScript
   * truthiness: every committee has approved.
   */
  function BothApproved(r: AidRequest): (b: bool)
    ensures b <==> forall c: Committee :: HasApproval(r, c)
  {
    HasApproval(r, Scientific) && HasApproval(r, Administrative)
  }

  /**
   * `{ ...r }` with the chosen committee's flag set to true: that flag is
   * set, no flag is cleared, and every other field is copied.
   */
  function SetApproval(r: AidRequest, c: Committee): (up: AidRequest)
    ensures HasApproval(up, c)
    ensures forall c' :: HasApproval(r, c') ==> HasApproval(up, c')
    ensures up.(scientificApproved := r.scientificApproved, adminApproved := r.adminApproved) == r
    ensures c == Scientific ==> up.adminApproved == r.adminApproved
    ensures c == Administrative ==> up.scientificApproved == r.scientificApproved
  {
    match c
    case Scientific => r.(scientificApproved := Some(true))
    case Administrative => r.(adminApproved := Some(true))
  }

  /** Approving twice for the same committee is approving once. */
  lemma SetApprovalIdempotent(r: AidRequest, c: Committee)
    ensures SetApproval(SetApproval(r, c), c) == SetApproval(r, c)
  {
  }

  /**
   * The two committees act independently: either order of sign-off gives the
   * same record, and that record has both flags.
   */
  lemma SetApprovalOrderIndependent(r: AidRequest)
    ensures SetApproval(SetApproval(r, Scientific), Administrative) == SetApproval(SetApproval(r, Administrative), Scientific)
    ensures BothApproved(SetApproval(SetApproval(r, Scientific), Administrative))
  {
  }

  /** A single approval completes the pair exactly when the other committee had already approved. */
  lemma ApprovalCompletesPair(r: AidRequest, c: Committee)
    ensures BothApproved(SetApproval(r, c)) <==> HasApproval(r, if c == Scientific then Administrative else Scientific)
  {
  }

  /**
   * The actions the detail view renders for a status (App.tsx and
   * AdminDashboard.tsx alike): the two committee buttons while pending
   * approval, one step forward from accountability review and from waiting
   * for reimbursement, and nothing anywhere else.
   */
  function OfferedActions(s: Status): (acts: set<AdminAction>)
    ensures ApproveBy(Scientific) in acts <==> s == PendingApproval
    ensures ApproveBy(Administrative) in acts <==> s == PendingApproval
    ensures forall t :: AdvanceTo(t) in acts <==>
              (s == AccountabilityReview && t == WaitingReimbursement) || (s == WaitingReimbursement && t == Completed)
    ensures acts == {} <==> s == Approved || s == Rejected || s == PendingAccountability || s == Completed
  {
    match s
    case PendingApproval => {ApproveBy(Scientific), ApproveBy(Administrative)}
    case AccountabilityReview => {AdvanceTo(WaitingReimbursement)}
    case WaitingReimbursement => {AdvanceTo(Completed)}
    case _ => {}
  }

  /** Position of a status along the intended progression; `Rejected` is terminal like `Completed`. */
  function Stage(s: Status): nat {
    match s
    case PendingApproval => 0
    case Approved => 1
    case PendingAccountability => 2
    case AccountabilityReview => 3
    case WaitingReimbursement => 4
    case Completed => 5
    case Rejected => 5
  }

  /**
   * Every offered step forward moves strictly along the progression, and
   * both terminal statuses offer nothing, so the admin controls cannot cycle.
   */
  lemma OfferedStepsMoveForward(s: Status, t: Status)
    ensures AdvanceTo(t) in OfferedActions(s) ==> Stage(s) < Stage(t)
    ensures (s == Completed || s == Rejected) ==> OfferedActions(s) == {}
  {
  }

  /** App.tsx `handleStatusChange`: the e-mail text for a target status; empty means no e-mail. */
  function StatusMessage(t: Status): (msg: string)
    ensures |msg| > 0 <==> t == WaitingReimbursement || t == Completed
  {
    if t == WaitingReimbursement then "Sua presta\U{e7}\U{e3}o de contas foi aprovada. O reembolso entrou na fila de pagamento."
    else if t == Completed then "O reembolso foi efetuado e o processo foi finalizado."
    else ""
  }
}

=== FILE: login.dfy ===
/**
 * Login.tsx: the registration, login and admin tabs. Credential checking
 * and account creation belong to callbacks that are not part of this model;
 * their replies are parameters. The admin secret is an opaque constant.
 */
module Login {
  import opened Wrappers
  import opened Types
  import opened Files

  /** The fixed administrative password (the same literal appears in App.tsx). */
  const AdminSecret: string := "citiadminciti"

  /** The user the admin tab logs in. */
  const AdminUser: User := User("admin", "Admin", "admin@citi.com", Admin, None, None, None)

  const ShortPasswordMessage: string := "A senha deve ter no m\U{ed}nimo 6 caracteres."
  const WrongAdminPassword: string := "Senha incorreta"

  /** What `onRegister` answers. */
  datatype RegisterReply = RegisterReply(success: bool, message: string)

  /** Whether `onRegister` was called, and the error shown afterwards (None: the error is not set). */
  datatype RegisterOutcome = RegisterOutcome(calledBack: bool, error: Option<string>)

  /** What `onVerify` answers. */
  datatype VerifyReply = VerifyReply(success: bool, user: Option<User>, message: string)

  datatype LoginResult = LoggedIn(user: User) | ShowError(message: string)

  /**
   * `handleRegister`: a password shorter than six UTF-16 code units (its
   * JavaScript `length`) is refused before `onRegister` is called;
   * otherwise a failed registration shows the callback's own message.
   */
  function HandleRegister(password: string, reply: RegisterReply): (o: RegisterOutcome)
    ensures o.calledBack <==> Utf16Length(password) >= 6
    ensures !o.calledBack ==> o.error == Some(ShortPasswordMessage)
    ensures o.calledBack ==> (o.error.Some? <==> !reply.success)
    ensures o.calledBack && !reply.success ==> o.error == Some(reply.message)
  {
    if Utf16Length(password) < 6 then RegisterOutcome(false, Some(ShortPasswordMessage))
    else if !reply.success then RegisterOutcome(true, Some(reply.message))
    else RegisterOutcome(true, None)
  }

  /** The login form: `onLogin` only when verification succeeds and returns a user. */
  function HandleLogin(reply: VerifyReply): (r: LoginResult)
    ensures r.LoggedIn? <==> reply.success && reply.user.Some?
    ensures r.LoggedIn? ==> r.user == reply.user.value
    ensures r.ShowError? ==> r.message == reply.message
  {
    if reply.success && reply.user.Some? then LoggedIn(reply.user.value) else ShowError(reply.message)
  }

  /** The admin form: an administrator exactly when the entered password is the secret. */
  function HandleAdminLogin(password: string): (r: LoginResult)
    ensures r.LoggedIn? <==> password == AdminSecret
    ensures r.LoggedIn? ==> r.user.role == Admin && r.user.id == "admin"
    ensures r.ShowError? ==> r.message == WrongAdminPassword
  {
    if password == AdminSecret then LoggedIn(AdminUser) else ShowError(WrongAdminPassword)
  }
}

=== FILE: notify.dfy ===
/**
 * Notifications. Handlers emit `Notice`s (recipient and subject) instead of
 * calling the mail service; `Dispatch` expands one notice into the
 * per-recipient delivery attempts the mail helper makes. Delivery itself is
 * outside the model: which recipients fail is a parameter.
 */
module Notify {

  /** An intent to e-mail `to` with `subject`; the message body is not modelled. */
  datatype Notice = Notice(to: string, subject: string)

  datatype Outcome = Delivered | DeliveryFailed | Skipped

  datatype Attempt = Attempt(recipient: string, outcome: Outcome)

  /** The two administrators who are copied on every message (identical in api.ts and App.tsx). */
  const AdminEmails: seq<string> := ["eirasmc@gmail.com", "edson.takitani@citimedicinareprodutiva.com.br"]

  /** The placeholder service id both files ship with. */
  const PlaceholderServiceId: string := "service_xxxx"

  /** The addressee first, then the two administrators, in that order. */
  function Recipients(to: string): (r: seq<string>)
    ensures |r| == 3
    ensures r[0] == to && r[1..] == AdminEmails
  {
    [to] + AdminEmails
  }

  /**
   * api.ts `sendEmailNotification`: one attempt per recipient; a failure is
   * caught inside that recipient's attempt, so every recipient is still tried
   * and the call itself always completes.
   */
  function Dispatch(to: string, failing: set<string>): (r: seq<Attempt>)
    ensures |r| == |Recipients(to)|
    ensures forall i :: 0 <= i < |r| ==> r[i].recipient == Recipients(to)[i]
    ensures forall i :: 0 <= i < |r| ==> (r[i].outcome == DeliveryFailed <==> Recipients(to)[i] in failing)
    ensures forall i :: 0 <= i < |r| ==> r[i].outcome != Skipped
  {
    var rs := Recipients(to);
    seq(|rs|, i requires 0 <= i < |rs| => Attempt(rs[i], if rs[i] in failing then DeliveryFailed else Delivered))
  }

  /**
   * App.tsx `sendEmail`: the same fan-out, except that each attempt returns
   * before sending while the service id is still the placeholder.
   */
  function AppDispatch(serviceId: string, to: string, failing: set<string>): (r: seq<Attempt>)
    ensures |r| == |Recipients(to)|
    ensures forall i :: 0 <= i < |r| ==> r[i].recipient == Recipients(to)[i]
    ensures serviceId == PlaceholderServiceId ==> forall i :: 0 <= i < |r| ==> r[i].outcome == Skipped
    ensures serviceId != PlaceholderServiceId ==> r == Dispatch(to, failing)
  {
    if serviceId == PlaceholderServiceId then
      var rs := Recipients(to);
      seq(|rs|, i requires 0 <= i < |rs| => Attempt(rs[i], Skipped))
    else Dispatch(to, failing)
  }
}

=== FILE: scenarios.dfy ===
/**
 * Multi-step consequences of App.tsx's handlers taken together: what the
 * stored list holds after a sequence of clicks, and where App.tsx and
 * Login.tsx apply different rules to the same action.
 */
module Scenarios {
  import opened Wrappers
  import opened Types
  import opened Store
  import opened Notify
  import opened Files
  import opened Lifecycle
  import opened AppAdmin
  import opened AppEmployee
  import opened EmployeeForm
  import Login

  /** App.tsx's initial `api.getRequests()`: the loaded list becomes the stored one. */
  function Reload(sess: Session): (out: Session)
    ensures out.reqs == sess.store && out.store == sess.store
  {
    Session(sess.store, sess.store)
  }

  /**
   * `approve`'s direct save does not refresh the loaded list. When the second
   * committee approves the record as it is shown, without a reload, the
   * first flag is overwritten: the stored record carries only the second
   * approval and is still pending.
   */
  lemma StaleListLosesFirstApproval(sess: Session, r: AidRequest)
    requires r.status == PendingApproval
    requires !HasApproval(r, Scientific) && !HasApproval(r, Administrative)
    requires Find(sess.reqs, RequestId, r.id) == Some(r)
    ensures var s1 := AdminStep(sess, r, ApproveBy(Scientific)).value.0;
            var shown := Find(s1.reqs, RequestId, r.id).value;
            var s2 := AdminStep(s1, shown, ApproveBy(Administrative)).value.0;
            && Find(s2.store, RequestId, r.id) == Some(SetApproval(r, Administrative))
            && !HasApproval(Find(s2.store, RequestId, r.id).value, Scientific)
            && Find(s2.store, RequestId, r.id).value.status == PendingApproval
  {
    ApprovalCompletesPair(r, Scientific);
    ApprovalCompletesPair(r, Administrative);
  }

  /**
   * With a reload between the two approvals the second one promotes the
   * request, but `onUpdate` then overwrites the fully approved record with
   * the loaded copy: the stored request is `Approved` while the flag of the
   * committee that approved last is not set.
   */
  lemma PromotionDropsLastFlag(sess: Session, r: AidRequest)
    requires r.status == PendingApproval
    requires !HasApproval(r, Scientific) && !HasApproval(r, Administrative)
    requires Find(sess.reqs, RequestId, r.id) == Some(r)
    ensures var s1 := Reload(AdminStep(sess, r, ApproveBy(Scientific)).value.0);
            var shown := Find(s1.reqs, RequestId, r.id).value;
            var s2 := AdminStep(s1, shown, ApproveBy(Administrative)).value.0;
            && Find(s2.store, RequestId, r.id).value.status == Approved
            && HasApproval(Find(s2.store, RequestId, r.id).value, Scientific)
            && !HasApproval(Find(s2.store, RequestId, r.id).value, Administrative)
  {
    ApprovalCompletesPair(r, Scientific);
    var s1 := Reload(AdminStep(sess, r, ApproveBy(Scientific)).value.0);
    var shown := Find(s1.reqs, RequestId, r.id).value;
    assert shown == SetApproval(r, Scientific);
    ApprovalCompletesPair(shown, Administrative);
  }

  /**
   * Submission on an empty store and both approvals, with a reload of the
   * loaded list before each admin click: the stored list afterwards, or
   * `None` when a step does nothing.
   */
  function RunApprovals(f: AppForm, user: User, id: string, now: string, sumUrl: string, ethicsUrl: string): Option<seq<AidRequest>>
  {
    match SubmitNewRequest([], f, user, id, now, sumUrl, ethicsUrl)
    case Failure(_) => None
    case Success((created, _)) =>
      if created == [] then None
      else match AdminStep(Session(created, created), created[0], ApproveBy(Scientific))
      case None => None
      case Some((a1, _)) =>
        if a1.store == [] then None
        else match AdminStep(Reload(a1), a1.store[0], ApproveBy(Administrative))
        case None => None
        case Some((a2, _)) => Some(a2.store)
  }

  /** One admin advance to `t` on the first loaded request, giving the reloaded session. */
  function RunAdvance(s: Session, t: Status): Option<Session>
  {
    if s.reqs == [] then None
    else match AdminStep(s, s.reqs[0], AdvanceTo(t))
    case None => None
    case Some((n, _)) => Some(n)
  }

  /** The two admin advances, to reimbursement and to completion, on the stored list. */
  function RunAdvances(e: seq<AidRequest>): Option<seq<AidRequest>>
  {
    match RunAdvance(Session(e, e), WaitingReimbursement)
    case None => None
    case Some(w) =>
      match RunAdvance(w, Completed)
      case None => None
      case Some(c) => Some(c.store)
  }

  /** The employee's accountability package for request `id`, then the two admin advances. */
  function RunClosing(store: seq<AidRequest>, user: User, id: string, files: seq<LocalFile>, urls: seq<string>): Option<seq<AidRequest>>
    requires |urls| == |files|
  {
    match HandleAccountabilitySubmit(Mine(store, user.id), store, id, files, urls, user)
    case Failure(_) => None
    case Success(None) => None
    case Success(Some((e, _))) => RunAdvances(e)
  }

  /** The whole lifecycle: the approvals, then the closing steps on the stored list. */
  function RunLifecycle(f: AppForm, user: User, id: string, now: string, sumUrl: string, ethicsUrl: string,
                        files: seq<LocalFile>, urls: seq<string>): Option<seq<AidRequest>>
    requires |urls| == |files|
  {
    match RunApprovals(f, user, id, now, sumUrl, ethicsUrl)
    case None => None
    case Some(store) => RunClosing(store, user, id, files, urls)
  }

  /** Saving a record over the only record with its id leaves just the new record. */
  lemma SaveOverSingle(r: AidRequest, up: AidRequest)
    requires up.id == r.id
    ensures SaveRequest([r], up) == [up]
  {
    assert RequestId([r][0]) == up.id;
  }

  /** The first (scientific) approval of a fresh request is saved directly; the loaded list keeps the old copy. */
  lemma FirstApprovalStep(req: AidRequest)
    requires req.status == PendingApproval && !HasApproval(req, Scientific) && !HasApproval(req, Administrative)
    ensures AdminStep(Session([req], [req]), req, ApproveBy(Scientific)) == Some((Session([req], [SetApproval(req, Scientific)]), []))
  {
    ApprovalCompletesPair(req, Scientific);
    SaveOverSingle(req, SetApproval(req, Scientific));
  }

  /** After a reload, the administrative approval promotes the single request to `Approved`. */
  lemma SecondApprovalStep(r1: AidRequest)
    requires r1.status == PendingApproval && HasApproval(r1, Scientific) && !HasApproval(r1, Administrative)
    ensures AdminStep(Session([r1], [r1]), r1, ApproveBy(Administrative)).Some?
    ensures AdminStep(Session([r1], [r1]), r1, ApproveBy(Administrative)).value.0 ==
            Session([r1.(status := Approved)], [r1.(status := Approved)])
  {
    ApprovalCompletesPair(r1, Administrative);
    var up := SetApproval(r1, Administrative);
    SaveOverSingle(r1, up);
    SaveOverSingle(up, r1.(status := Approved));
    assert Find([r1], RequestId, r1.id) == Some(r1);
  }

  /** The employee's accountability package for their only request. */
  lemma AccountabilityStep(r2: AidRequest, files: seq<LocalFile>, urls: seq<string>, user: User)
    requires r2.employeeId == user.id && r2.id != "" && |files| > 0 && |urls| == |files|
    ensures Mine([r2], user.id) == [r2]
    ensures HandleAccountabilitySubmit([r2], [r2], r2.id, files, urls, user) ==
            Success(Some(([AccountabilityUpdate(r2, files, urls)], Notice(user.email, AccountabilitySubject))))
  {
    assert Find([r2], RequestId, r2.id) == Some(r2);
    SaveOverSingle(r2, AccountabilityUpdate(r2, files, urls));
  }

  /** An offered advance on the only request stores and reloads it with the new status. */
  lemma AdvanceStep(r: AidRequest, t: Status)
    requires (r.status == AccountabilityReview && t == WaitingReimbursement) || (r.status == WaitingReimbursement && t == Completed)
    ensures RunAdvance(Session([r], [r]), t) == Some(Session([r.(status := t)], [r.(status := t)]))
  {
    assert AdvanceTo(t) in OfferedActions(r.status);
    assert Find([r], RequestId, r.id) == Some(r);
    SaveOverSingle(r, r.(status := t));
  }

  /** Submission and both approvals leave the fresh request alone in the store, scientifically approved and `Approved`. */
  lemma ApprovalsRun(f: AppForm, user: User, id: string, now: string, sumUrl: string, ethicsUrl: string)
    requires f.sumFile.Some?
    ensures RunApprovals(f, user, id, now, sumUrl, ethicsUrl) ==
            Some([SetApproval(NewRequest(f, user, id, now, sumUrl, ethicsUrl).value, Scientific).(status := Approved)])
  {
    var req := NewRequest(f, user, id, now, sumUrl, ethicsUrl).value;
    assert [req] + [] == [req];
    assert SubmitNewRequest([], f, user, id, now, sumUrl, ethicsUrl) == Success(([req], Notice(user.email, ReceivedSubject)));
    FirstApprovalStep(req);
    var r1 := SetApproval(req, Scientific);
    assert Reload(Session([req], [r1])) == Session([r1], [r1]);
    SecondApprovalStep(r1);
  }

  /** Both advances on a single request under accountability review complete it. */
  lemma AdvancesRun(r: AidRequest)
    requires r.status == AccountabilityReview
    ensures RunAdvances([r]) == Some([r.(status := Completed)])
  {
    AdvanceStep(r, WaitingReimbursement);
    var w := r.(status := WaitingReimbursement);
    AdvanceStep(w, Completed);
  }

  /** The closing steps on an approved request of the employee take it to `Completed` with the uploads on record. */
  lemma ClosingRun(r2: AidRequest, user: User, files: seq<LocalFile>, urls: seq<string>)
    requires r2.employeeId == user.id && r2.id != "" && r2.status == Approved
    requires |files| > 0 && |urls| == |files|
    ensures RunClosing([r2], user, r2.id, files, urls) == Some([AccountabilityUpdate(r2, files, urls).(status := Completed)])
  {
    AccountabilityStep(r2, files, urls, user);
    AdvancesRun(AccountabilityUpdate(r2, files, urls));
  }

  /**
   * Every step of `RunLifecycle` acts, and the request ends `Completed`,
   * with its summary and the accountability uploads on record, and (because
   * of the promotion overwrite) without the administrative flag.
   */
  lemma FullLifecycle(f: AppForm, user: User, id: string, now: string, sumUrl: string, ethicsUrl: string,
                      files: seq<LocalFile>, urls: seq<string>)
    requires f.sumFile.Some? && id != "" && |files| > 0 && |urls| == |files|
    ensures var c := RunLifecycle(f, user, id, now, sumUrl, ethicsUrl, files, urls);
            && c.Some?
            && |c.value| == 1
            && c.value[0].id == id
            && c.value[0].status == Completed
            && c.value[0].documents == [SimpleFile(f.sumFile.value.name, "PDF", None, Some(sumUrl))]
            && c.value[0].accountabilityDocuments == Uploaded(files, urls)
            && HasApproval(c.value[0], Scientific) && !HasApproval(c.value[0], Administrative)
  {
    var req := NewRequest(f, user, id, now, sumUrl, ethicsUrl).value;
    ApprovalsRun(f, user, id, now, sumUrl, ethicsUrl);
    var r2 := SetApproval(req, Scientific).(status := Approved);
    ClosingRun(r2, user, files, urls);
    var done := AccountabilityUpdate(r2, files, urls).(status := Completed);
    assert RunLifecycle(f, user, id, now, sumUrl, ethicsUrl, files, urls) == Some([done]);
    assert done.accountabilityDocuments == [] + Uploaded(files, urls);
  }

  /**
   * The two registration paths disagree: Login.tsx refuses a password
   * shorter than six code units before registering, App.tsx's prompt
   * accepts any non-empty one, after which the new employee logs in unless
   * an older account holds the same credentials.
   */
  lemma RegistrationRulesDiffer(users: seq<User>, name: string, email: string, pass: string, now: string, reply: Login.RegisterReply)
    requires name != "" && email != "" && pass != "" && Utf16Length(pass) < 6
    ensures !Login.HandleRegister(pass, reply).calledBack
    ensures AppRegister(users, Some(name), Some(email), Some(pass), now).Some?
    ensures AppLogin(AppRegister(users, Some(name), Some(email), Some(pass), now).value.0, email, pass).Some?
    ensures (forall v :: v in users && v.id != now ==> !Matches(v, email, pass)) ==>
              AppLogin(AppRegister(users, Some(name), Some(email), Some(pass), now).value.0, email, pass) ==
              Some(AppRegister(users, Some(name), Some(email), Some(pass), now).value.1)
  {
    RegisteredUserCanLogIn(users, name, email, pass, now);
  }

  /** The same secret yields two different administrator identities in the two entry points. */
  lemma AdminIdentitiesDiffer()
    ensures Login.HandleAdminLogin(Login.AdminSecret).LoggedIn?
    ensures AppAdminAccess(Some(Login.AdminSecret)).Some?
    ensures Login.HandleAdminLogin(Login.AdminSecret).user.id != AppAdminAccess(Some(Login.AdminSecret)).value.id
  {
  }

  /**
   * The two accountability variants accept the same submissions: with no
   * upload running, EmployeeDashboard.tsx's button hands on a selection and
   * its staged files exactly when App.tsx's handler, given as many files,
   * does not refuse them.
   */
  lemma AccountabilityGatesAgree(requests: seq<AidRequest>, store: seq<AidRequest>, selectedId: string,
                                 staged: seq<SimpleFile>, files: seq<LocalFile>, urls: seq<string>, user: User)
    requires |files| == |staged| && |urls| == |files|
    ensures SubmitAccountability(selectedId, staged, false).Some? <==>
            HandleAccountabilitySubmit(requests, store, selectedId, files, urls, user).Success?
  {
  }

  /**
   * App.tsx's credential lookup, answered through Login.tsx's login form:
   * the page logs in exactly the user the lookup found, and shows the
   * message when the lookup finds nobody.
   */
  lemma LoginFormFollowsLookup(users: seq<User>, email: string, pass: string, message: string)
    ensures var found := AppLogin(users, email, pass);
            var shown := Login.HandleLogin(Login.VerifyReply(found.Some?, found, message));
            && (shown.LoggedIn? <==> found.Some?)
            && (found.Some? ==> shown == Login.LoggedIn(found.value))
            && (found.None? ==> shown == Login.ShowError(message))
  {
  }
}

=== FILE: store.dfy ===
/**
 * The record store of api.ts and App.tsx with the backend stripped away:
 * each stored collection is a list kept in the order the code writes it,
 * and every write is a pure function from the list read back to the list
 * written. Records are keyed by `id`; the same list operations serve
 * requests and users, so they are written once over a key function.
 */
module Store {
  import opened Wrappers
  import opened Types

  /** Some element carries key `k` (the truthy result of `Array.prototype.find`). */
  predicate HasKey<T(==)>(xs: seq<T>, key: T -> string, k: string) {
    exists i :: 0 <= i < |xs| && key(xs[i]) == k
  }

  /** `Array.prototype.find` on the key: the first element carrying `k`, if any. */
  function Find<T(==)>(xs: seq<T>, key: T -> string, k: string): (r: Option<T>)
    ensures r.Some? <==> HasKey(xs, key, k)
    ensures r.Some? ==> key(r.value) == k
    ensures r.Some? ==> exists i :: 0 <= i < |xs| && xs[i] == r.value && forall j :: 0 <= j < i ==> key(xs[j]) != k
  {
    if xs == [] then None
    else if key(xs[0]) == k then Some(xs[0])
    else
      var r := Find(xs[1..], key, k);
      assert HasKey(xs[1..], key, k) ==> HasKey(xs, key, k) by {
        if HasKey(xs[1..], key, k) {
          var i :| 0 <= i < |xs[1..]| && key(xs[1..][i]) == k;
          assert key(xs[i + 1]) == k;
        }
      }
      assert HasKey(xs, key, k) ==> HasKey(xs[1..], key, k) by {
        if HasKey(xs, key, k) {
          var i :| 0 <= i < |xs| && key(xs[i]) == k;
          assert i != 0;
          assert key(xs[1..][i - 1]) == k;
        }
      }
      if r.Some? then
        var i :| 0 <= i < |xs[1..]| && xs[1..][i] == r.value && forall j :: 0 <= j < i ==> key(xs[1..][j]) != k;
        assert xs[i + 1] == r.value;
        assert forall j :: 0 <= j < i + 1 ==> key(xs[j]) != k by {
          forall j | 0 <= j < i + 1
            ensures key(xs[j]) != k
          {
            if j > 0 { assert xs[j] == xs[1..][j - 1]; }
          }
        }
        r
      else r
  }

  /** How many elements carry key `k`. */
  function CountKey<T(==)>(xs: seq<T>, key: T -> string, k: string): (n: nat)
    ensures n <= |xs|
    ensures n == 0 <==> !HasKey(xs, key, k)
  {
    if xs == [] then 0
    else
      var rest := CountKey(xs[1..], key, k);
      assert HasKey(xs, key, k) <==> key(xs[0]) == k || HasKey(xs[1..], key, k) by {
        if HasKey(xs, key, k) {
          var i :| 0 <= i < |xs| && key(xs[i]) == k;
          if i > 0 { assert key(xs[1..][i - 1]) == k; }
        }
        if HasKey(xs[1..], key, k) {
          var i :| 0 <= i < |xs[1..]| && key(xs[1..][i]) == k;
          assert key(xs[i + 1]) == k;
        }
      }
      (if key(xs[0]) == k then 1 else 0) + rest
  }

  /** `xs.map(y => key(y) === key(x) ? x : y)`: every element carrying x's key becomes x. */
  function ReplaceKey<T(==)>(xs: seq<T>, key: T -> string, x: T): (r: seq<T>)
    ensures |r| == |xs|
    ensures forall i :: 0 <= i < |xs| ==> r[i] == if key(xs[i]) == key(x) then x else xs[i]
  {
    if xs == [] then []
    else [if key(xs[0]) == key(x) then x else xs[0]] + ReplaceKey(xs[1..], key, x)
  }

  /** `xs.filter(y => key(y) !== k)`. */
  function RemoveKey<T(==)>(xs: seq<T>, key: T -> string, k: string): (r: seq<T>)
    ensures !HasKey(r, key, k)
    ensures forall y :: y in r ==> y in xs && key(y) != k
    ensures forall y :: y in xs && key(y) != k ==> y in r
    ensures |r| + CountKey(xs, key, k) == |xs|
  {
    if xs == [] then []
    else if key(xs[0]) == k then RemoveKey(xs[1..], key, k)
    else
      var rest := RemoveKey(xs[1..], key, k);
      assert forall y :: y in xs ==> y == xs[0] || y in xs[1..];
      [xs[0]] + rest
  }

  /** Concatenation is associative; stated apart so that no quantified fact about the parts is in scope. */
  lemma ConcatAssoc<T>(a: seq<T>, b: seq<T>, c: seq<T>)
    ensures a + (b + c) == (a + b) + c
  {
  }

  /** One step of the filter: the head is kept or dropped, the tail is filtered. */
  lemma RemoveKeyCons<T>(x: T, xs: seq<T>, key: T -> string, k: string)
    ensures RemoveKey([x] + xs, key, k) == (if key(x) == k then [] else [x]) + RemoveKey(xs, key, k)
  {
    assert ([x] + xs)[1..] == xs;
  }

  /** Removal distributes over concatenation, so the survivors keep their relative order. */
  lemma {:induction false} RemoveKeyAppend<T>(xs: seq<T>, ys: seq<T>, key: T -> string, k: string)
    ensures RemoveKey(xs + ys, key, k) == RemoveKey(xs, key, k) + RemoveKey(ys, key, k)
  {
    if xs == [] {
      assert xs + ys == ys;
    } else {
      var h, t := xs[0], xs[1..];
      assert xs == [h] + t;
      assert xs + ys == [h] + (t + ys);
      RemoveKeyCons(h, t + ys, key, k);
      RemoveKeyCons(h, t, key, k);
      RemoveKeyAppend(t, ys, key, k);
      ConcatAssoc(if key(h) == k then [] else [h], RemoveKey(t, key, k), RemoveKey(ys, key, k));
    }
  }

  /** Removing a key nobody carries changes nothing. */
  lemma {:induction false} RemoveAbsentKey<T>(xs: seq<T>, key: T -> string, k: string)
    requires !HasKey(xs, key, k)
    ensures RemoveKey(xs, key, k) == xs
  {
    if xs != [] {
      assert key(xs[0]) != k;
      forall i | 0 <= i < |xs[1..]|
        ensures key(xs[1..][i]) != k
      {
        assert xs[1..][i] == xs[i + 1];
      }
      RemoveAbsentKey(xs[1..], key, k);
      assert xs == [xs[0]] + xs[1..];
    }
  }

  /** A non-empty list carries k iff its head or its tail does. */
  lemma HasKeyTail<T>(xs: seq<T>, key: T -> string, k: string)
    requires xs != []
    ensures HasKey(xs, key, k) <==> key(xs[0]) == k || HasKey(xs[1..], key, k)
  {
    if HasKey(xs, key, k) && key(xs[0]) != k {
      var i :| 0 <= i < |xs| && key(xs[i]) == k;
      assert key(xs[1..][i - 1]) == k;
    }
    if HasKey(xs[1..], key, k) {
      var i :| 0 <= i < |xs[1..]| && key(xs[1..][i]) == k;
      assert key(xs[i + 1]) == k;
    }
  }

  /** After replacing, a lookup of x's key finds x; every other key looks up as before. */
  lemma {:induction false} FindAfterReplace<T>(xs: seq<T>, key: T -> string, x: T, k: string)
    ensures Find(ReplaceKey(xs, key, x), key, k) ==
            if k == key(x) then (if HasKey(xs, key, k) then Some(x) else None) else Find(xs, key, k)
  {
    if xs != [] {
      var r := ReplaceKey(xs, key, x);
      assert r[1..] == ReplaceKey(xs[1..], key, x);
      FindAfterReplace(xs[1..], key, x, k);
      HasKeyTail(xs, key, k);
    }
  }

  /**
   * `saveRequest` (identical in api.ts and App.tsx): a stored id is replaced
   * in place, a new id is put in front of the list.
   */
  function SaveRequest(store: seq<AidRequest>, req: AidRequest): (r: seq<AidRequest>)
    ensures HasKey(store, RequestId, req.id) ==>
              |r| == |store| &&
              forall i :: 0 <= i < |store| ==> r[i] == if store[i].id == req.id then req else store[i]
    ensures !HasKey(store, RequestId, req.id) ==> r == [req] + store
    ensures Find(r, RequestId, req.id) == Some(req)
    ensures forall k :: k != req.id ==> Find(r, RequestId, k) == Find(store, RequestId, k)
  {
    if HasKey(store, RequestId, req.id) then
      var r := ReplaceKey(store, RequestId, req);
      FindAfterReplace(store, RequestId, req, req.id);
      forall k | k != req.id
        ensures Find(r, RequestId, k) == Find(store, RequestId, k)
      {
        FindAfterReplace(store, RequestId, req, k);
      }
      r
    else
      var r := [req] + store;
      assert r[1..] == store;
      r
  }

  /** Saving the same record twice stores what saving it once stores. */
  lemma SaveRequestIdempotent(store: seq<AidRequest>, req: AidRequest)
    ensures SaveRequest(SaveRequest(store, req), req) == SaveRequest(store, req)
  {
    var once := SaveRequest(store, req);
    assert HasKey(once, RequestId, req.id);
  }

  /** `deleteRequest`: every record with the id goes; the rest stay in order. */
  function DeleteRequest(store: seq<AidRequest>, id: string): (r: seq<AidRequest>)
    ensures Find(r, RequestId, id) == None
    ensures forall q :: q in r <==> q in store && q.id != id
    ensures |r| <= |store|
  {
    RemoveKey(store, RequestId, id)
  }

  /** Deleting twice is deleting once. */
  lemma DeleteRequestIdempotent(store: seq<AidRequest>, id: string)
    ensures DeleteRequest(DeleteRequest(store, id), id) == DeleteRequest(store, id)
  {
    RemoveAbsentKey(DeleteRequest(store, id), RequestId, id);
  }

  /** Deleting a freshly created request gives back the list it was saved into. */
  lemma DeleteUndoesCreate(store: seq<AidRequest>, req: AidRequest)
    requires !HasKey(store, RequestId, req.id)
    ensures DeleteRequest(SaveRequest(store, req), req.id) == store
  {
    RemoveKeyAppend([req], store, RequestId, req.id);
    RemoveAbsentKey(store, RequestId, req.id);
  }

  /** api.ts `saveUser`: a stored id is replaced in place, a new id is appended. */
  function SaveUserInPlace(users: seq<User>, u: User): (r: seq<User>)
    ensures HasKey(users, UserId, u.id) ==>
              |r| == |users| &&
              forall i :: 0 <= i < |users| ==> r[i] == if users[i].id == u.id then u else users[i]
    ensures !HasKey(users, UserId, u.id) ==> r == users + [u]
    ensures Find(r, UserId, u.id) == Some(u)
  {
    if HasKey(users, UserId, u.id) then
      FindAfterReplace(users, UserId, u, u.id);
      ReplaceKey(users, UserId, u)
    else
      var r := users + [u];
      assert r[|users|] == u;
      assert Find(r, UserId, u.id).Some?;
      r
  }

  /**
   * App.tsx `saveUser`: every user with the id is removed and the new one is
   * appended, so the saved user is the only one with its id and comes last.
   */
  function SaveUserMoveToEnd(users: seq<User>, u: User): (r: seq<User>)
    ensures |r| > 0 && r[|r| - 1] == u
    ensures r[..|r| - 1] == RemoveKey(users, UserId, u.id)
    ensures CountKey(r, UserId, u.id) == 1
    ensures forall v :: v in r ==> v == u || (v in users && v.id != u.id)
    ensures forall v :: v in users && v.id != u.id ==> v in r
  {
    var kept := RemoveKey(users, UserId, u.id);
    var r := kept + [u];
    assert r[..|kept|] == kept;
    CountKeySplit(kept, [u], UserId, u.id);
    r
  }

  lemma {:induction false} CountKeySplit<T>(xs: seq<T>, ys: seq<T>, key: T -> string, k: string)
    ensures CountKey(xs + ys, key, k) == CountKey(xs, key, k) + CountKey(ys, key, k)
  {
    if xs == [] {
      assert xs + ys == ys;
    } else {
      assert (xs + ys)[1..] == xs[1..] + ys;
      CountKeySplit(xs[1..], ys, key, k);
    }
  }

  /** The two user upserts agree on a new id ... */
  lemma UserSavesAgreeOnNewId(users: seq<User>, u: User)
    requires !HasKey(users, UserId, u.id)
    ensures SaveUserInPlace(users, u) == SaveUserMoveToEnd(users, u)
  {
    RemoveAbsentKey(users, UserId, u.id);
  }

  /** ... but re-saving an existing user that is not last moves it only in App.tsx. */
  lemma UserSavesDivergeOnExistingId(a: User, b: User, a2: User)
    requires a.id != b.id && a2.id == a.id
    ensures SaveUserInPlace([a, b], a2) == [a2, b]
    ensures SaveUserMoveToEnd([a, b], a2) == [b, a2]
  {
    assert HasKey([a, b], UserId, a2.id) by { assert UserId([a, b][0]) == a2.id; }
    assert RemoveKey([a, b], UserId, a.id) == [b] by {
      assert [a, b][1..] == [b];
      assert [b][1..] == [];
    }
  }

  /** Re-saving an id whose user is not last: api.ts leaves another user last, App.tsx puts the saved one there. */
  lemma SavesDifferUnlessLast(users: seq<User>, u: User)
    requires |users| > 0 && users[|users| - 1].id != u.id
    requires HasKey(users, UserId, u.id)
    ensures SaveUserInPlace(users, u) != SaveUserMoveToEnd(users, u)
  {
    var p := SaveUserInPlace(users, u);
    assert p[|users| - 1] == users[|users| - 1];
  }

  /** Re-saving a duplicated id: api.ts keeps the length, App.tsx drops the extra copies. */
  lemma SavesDifferOnDuplicates(users: seq<User>, u: User)
    requires HasKey(users, UserId, u.id) && CountKey(users, UserId, u.id) != 1
    ensures SaveUserInPlace(users, u) != SaveUserMoveToEnd(users, u)
  {
    assert |SaveUserMoveToEnd(users, u)| < |SaveUserInPlace(users, u)|;
  }

  /** When only the last element carries k, removing k drops just that element. */
  lemma RemoveLastUnique<T>(xs: seq<T>, key: T -> string, k: string)
    requires |xs| > 0 && key(xs[|xs| - 1]) == k
    requires CountKey(xs, key, k) == 1
    ensures !HasKey(xs[..|xs| - 1], key, k)
    ensures RemoveKey(xs, key, k) == xs[..|xs| - 1]
  {
    var pre, lastOne := xs[..|xs| - 1], [xs[|xs| - 1]];
    assert xs == pre + lastOne;
    CountKeySplit(pre, lastOne, key, k);
    RemoveKeyAppend(pre, lastOne, key, k);
    RemoveAbsentKey(pre, key, k);
    assert lastOne[1..] == [];
  }

  /** When only the last element carries x's key, replacing by key swaps in x for that element. */
  lemma ReplaceLast<T>(xs: seq<T>, key: T -> string, x: T)
    requires |xs| > 0 && key(xs[|xs| - 1]) == key(x)
    requires !HasKey(xs[..|xs| - 1], key, key(x))
    ensures ReplaceKey(xs, key, x) == xs[..|xs| - 1] + [x]
  {
    var r, pre := ReplaceKey(xs, key, x), xs[..|xs| - 1];
    forall i | 0 <= i < |xs|
      ensures r[i] == (pre + [x])[i]
    {
      if i < |pre| {
        assert pre[i] == xs[i];
      }
    }
  }

  /** When the only element with x's key is the last one, replacing it equals removing it and appending x. */
  lemma ReplaceLastUnique<T>(xs: seq<T>, key: T -> string, x: T)
    requires |xs| > 0 && key(xs[|xs| - 1]) == key(x)
    requires CountKey(xs, key, key(x)) == 1
    ensures ReplaceKey(xs, key, x) == RemoveKey(xs, key, key(x)) + [x]
  {
    RemoveLastUnique(xs, key, key(x));
    ReplaceLast(xs, key, x);
  }

  /** Re-saving the only user with the id when it is last: both saves replace that last entry. */
  lemma SavesAgreeOnLastUnique(users: seq<User>, u: User)
    requires |users| > 0 && users[|users| - 1].id == u.id
    requires CountKey(users, UserId, u.id) == 1
    ensures SaveUserInPlace(users, u) == SaveUserMoveToEnd(users, u)
  {
    assert UserId(users[|users| - 1]) == u.id;
    ReplaceLastUnique(users, UserId, u);
    var m := SaveUserMoveToEnd(users, u);
    assert m == m[..|m| - 1] + [m[|m| - 1]];
  }

  /**
   * In general the two user saves agree on an existing id exactly when that
   * user is stored once, as the last entry; otherwise api.ts keeps the
   * position (or every duplicate) while App.tsx leaves one copy at the end.
   */
  lemma UserSavesAgreeIffLastAndUnique(users: seq<User>, u: User)
    requires HasKey(users, UserId, u.id)
    ensures |users| > 0
    ensures SaveUserInPlace(users, u) == SaveUserMoveToEnd(users, u) <==>
            users[|users| - 1].id == u.id && CountKey(users, UserId, u.id) == 1
  {
    if users[|users| - 1].id != u.id {
      SavesDifferUnlessLast(users, u);
    } else if CountKey(users, UserId, u.id) != 1 {
      SavesDifferOnDuplicates(users, u);
    } else {
      SavesAgreeOnLastUnique(users, u);
    }
  }

  /** constants.ts `MOCK_USER`, the fallback user list of api.ts. */
  const MockUser: User := User("emp-001", "Jo\U{e3}o Silva", "joao.silva@citimedicina.com.br",
                               Employee, Some("Embriologia"), None, None)

  /**
   * The read path that falls back to the empty list: api.ts `getRequests`
   * (its `INITIAL_REQUESTS` is empty) and both App.tsx loaders.
   */
  function LoadOrEmpty<T>(saved: Option<seq<T>>): (r: seq<T>)
    ensures saved.None? ==> r == []
    ensures saved.Some? ==> r == saved.value
  {
    saved.GetOr([])
  }

  /** api.ts `getUsers` read path: nothing stored reads as the one mock user. */
  function LoadUsers(saved: Option<seq<User>>): (r: seq<User>)
    ensures saved.None? ==> r == [MockUser]
    ensures saved.Some? ==> r == saved.value
  {
    saved.GetOr([MockUser])
  }

  /**
   * The first user saved through api.ts into an empty store is written next
   * to the mock user (unless it reuses the mock user's id); through App.tsx
   * it is written alone.
   */
  lemma FirstUserSave(u: User)
    ensures SaveUserInPlace(LoadUsers(None), u) == if u.id == MockUser.id then [u] else [MockUser, u]
    ensures SaveUserMoveToEnd(LoadOrEmpty(None), u) == [u]
  {
    if u.id == MockUser.id {
      assert HasKey([MockUser], UserId, u.id) by { assert UserId([MockUser][0]) == u.id; }
    }
  }
}

=== FILE: types.dfy ===
/**
 * The closed enumerations and record shapes of the aid-request portal
 * (types.ts). Optional TypeScript fields become `Option`s; the enum string
 * values are kept as labels so that the closed-set claim can be stated as a
 * round trip between a status and its stored label.
 */
module Types {
  import opened Wrappers

  datatype UserRole = Employee | Admin

  /** "Modalidade I" has no publication intent; "Modalidade II" has one. */
  datatype Modality = ModalityI | ModalityII

  datatype Status =
    | PendingApproval
    | Approved
    | Rejected
    | PendingAccountability
    | AccountabilityReview
    | WaitingReimbursement
    | Completed

  /** An attachment. types.ts requires `date`; App.tsx's own copy of the shape has none. */
  datatype SimpleFile = SimpleFile(name: string, size: string, date: Option<string>, url: Option<string>)

  datatype User = User(
    id: string,
    name: string,
    email: string,
    role: UserRole,
    department: Option<string>,
    password: Option<string>,
    resetRequested: Option<bool>)

  /**
   * The aggregate root. `employeeName` and `eventLocation` are required by
   * types.ts but absent from App.tsx's copy of the shape, so they are optional here.
   */
  datatype AidRequest = AidRequest(
    id: string,
    employeeId: string,
    employeeName: Option<string>,
    employeeInputName: string,
    jobRole: string,
    eventName: string,
    eventLocation: Option<string>,
    eventDate: string,
    registrationValue: string,
    eventParamsText: Option<string>,
    modality: Modality,
    status: Status,
    submissionDate: string,
    scientificApproved: Option<bool>,
    adminApproved: Option<bool>,
    documents: seq<SimpleFile>,
    ethicsCommitteeProof: Option<SimpleFile>,
    accountabilityDocuments: seq<SimpleFile>,
    rejectionReason: Option<string>)

  /** JavaScript truthiness of an optional boolean: absent and `false` both read as "not approved". */
  predicate Truthy(flag: Option<bool>) {
    flag == Some(true)
  }

  function RequestId(r: AidRequest): string { r.id }

  function UserId(u: User): string { u.id }

  /** Every status, in the intended progression order. */
  const AllStatuses: seq<Status> := [PendingApproval, Approved, Rejected, PendingAccountability,
                                     AccountabilityReview, WaitingReimbursement, Completed]

  /** The string value each status has in the enum (and in stored JSON). */
  function StatusLabel(s: Status): string {
    match s
    case PendingApproval => "Pendente Aprova\U{e7}\U{e3}o"
    case Approved => "Aprovado"
    case Rejected => "Recusado"
    case PendingAccountability => "Aguardando Presta\U{e7}\U{e3}o de Contas"
    case AccountabilityReview => "An\U{e1}lise de Contas"
    case WaitingReimbursement => "Aguardando Reembolso"
    case Completed => "Finalizado"
  }

  /** Reads a stored label back; any other string is not a status. */
  function ParseStatus(text: string): (r: Option<Status>)
    ensures r.Some? ==> StatusLabel(r.value) == text
  {
    if text == StatusLabel(PendingApproval) then Some(PendingApproval)
    else if text == StatusLabel(Approved) then Some(Approved)
    else if text == StatusLabel(Rejected) then Some(Rejected)
    else if text == StatusLabel(PendingAccountability) then Some(PendingAccountability)
    else if text == StatusLabel(AccountabilityReview) then Some(AccountabilityReview)
    else if text == StatusLabel(WaitingReimbursement) then Some(WaitingReimbursement)
    else if text == StatusLabel(Completed) then Some(Completed)
    else None
  }

  /** The status set is closed: exactly seven distinct values, each with its own label. */
  lemma StatusSetClosed()
    ensures |AllStatuses| == 7
    ensures forall s: Status :: s in AllStatuses
    ensures forall i, j :: 0 <= i < j < |AllStatuses| ==> StatusLabel(AllStatuses[i]) != StatusLabel(AllStatuses[j])
  {
    forall s: Status
      ensures s in AllStatuses
    {
      match s
      case PendingApproval => assert AllStatuses[0] == s;
      case Approved => assert AllStatuses[1] == s;
      case Rejected => assert AllStatuses[2] == s;
      case PendingAccountability => assert AllStatuses[3] == s;
      case AccountabilityReview => assert AllStatuses[4] == s;
      case WaitingReimbursement => assert AllStatuses[5] == s;
      case Completed => assert AllStatuses[6] == s;
    }
  }

  /** Every status survives being written as its label and read back. */
  lemma StatusLabelRoundTrip(s: Status)
    ensures ParseStatus(StatusLabel(s)) == Some(s)
  {
    match s
    case PendingApproval =>
    case Approved =>
    case Rejected =>
    case PendingAccountability =>
      assert StatusLabel(PendingAccountability)[11] != StatusLabel(WaitingReimbursement)[11];
    case AccountabilityReview =>
    case WaitingReimbursement =>
    case Completed =>
  }

  function ModalityLabel(m: Modality): (r: string)
    ensures |r| > 11 && r[..11] == "Modalidade "
  {
    match m
    case ModalityI => "Modalidade I"
    case ModalityII => "Modalidade II"
  }

  function RoleLabel(r: UserRole): string {
    match r
    case Employee => "EMPLOYEE"
    case Admin => "ADMIN"
  }

  function ParseModality(text: string): (r: Option<Modality>)
    ensures r.Some? ==> ModalityLabel(r.value) == text
  {
    if text == ModalityLabel(ModalityI) then Some(ModalityI)
    else if text == ModalityLabel(ModalityII) then Some(ModalityII)
    else None
  }

  function ParseRole(text: string): (r: Option<UserRole>)
    ensures r.Some? ==> RoleLabel(r.value) == text
  {
    if text == RoleLabel(Employee) then Some(Employee)
    else if text == RoleLabel(Admin) then Some(Admin)
    else None
  }

  /** Each two-valued enum keeps its two values apart through its stored label. */
  lemma TwoValuedEnumsRoundTrip(m: Modality, u: UserRole)
    ensures ParseModality(ModalityLabel(m)) == Some(m)
    ensures ParseRole(RoleLabel(u)) == Some(u)
  {
    match m
    case ModalityI =>
    case ModalityII =>
      assert |ModalityLabel(ModalityII)| != |ModalityLabel(ModalityI)|;
  }
}

=== FILE: wrappers.dfy ===
/** Failure-carrying datatypes used across the model. */
module Wrappers {

  datatype Option<+T> = None | Some(value: T) {
    function GetOr(default: T): T {
      match this
      case Some(v) => v
      case None => default
    }
  }

  /** A value, or the message the user is shown instead. */
  datatype Result<+R, +E> = Success(value: R) | Failure(error: E)
}
